=== FILE: README.md ===
# GeoFrontend core in Dafny

This project models the browser front end of a small geoportal. The portal
publishes raster and vector layers to a GeoServer instance through its REST
interface. It shows the published layers on a map, and it lets a user draw
vector features, edit their attributes and reorder layers. It also turns
band images into a vegetation index and publishes that index as a layer.

The model is purely functional. An HTTP exchange becomes a `Request` value
in a trace. The server's answers are a `Server` record of abstract replies
that is given as input. Each workflow of the upload service is a function
from the service state, the form and those replies to a `Run`. A `Run` holds
the ordered trace of requests sent and an outcome, which is either a
returned value or a thrown failure.

The modules follow the program's structure:

- `Js`: the JavaScript primitives the code relies on. These are null
  rendering in template strings, `lastIndexOf`, `substring`, `split` and
  `join`, `toString(16)`, `toUpperCase` and `FormData`.
- `Seqs`: the sequence vocabulary, namely `filter`, removal and duplicate
  freedom.
- `Features`: OpenLayers features reduced to their ordered property lists,
  plus the attribute-table component.
- `GeoServer`: the upload service. This covers the workspace name, the
  workspace, coverage-store and datastore checks, the raster, vector and
  GeoJSON uploads, and layer deletion.
- `MapView`: the map component's layer lists, layer deletion, the index
  legend and `rgbToHex`.
- `LayerList`: the layer-list component.
- `CreateVector`: the drawing toolbar. It is a transition system whose
  invariant ties the interactions held to those added to the map.
- `IndexPage`: the vegetation-index page.
- `UploadPage`: the upload page.
- `Session`: the in-memory session store.

## Model

All paths are under `src/app/`.

| member | source | states |
|---|---|---|
| Session.SetNickname | src/app/session-data.ts:7-9 | after storing a nickname, `getNickname` returns it and the roles are unchanged |
| Session.SetRoles | src/app/session-data.ts:11-13 | after storing roles, `getRoles` returns them and the nickname is unchanged |
| Session.ClearNickname | src/app/session-data.ts:21-23 | clearing the nickname leaves it null and keeps the roles |
| Session.ClearRoles | src/app/session-data.ts:25-27 | clearing the roles leaves an empty list and keeps the nickname |
| Session.ClearAll | src/app/session-data.ts:28-31 | `clearAll` returns the store to its initial anonymous state (no nickname, no roles) |
| Session.ClearAllIdempotent | src/app/session-data.ts:28-31 | clearing twice is the same as clearing once |
| Session.SetThenGet | src/app/session-data.ts:7-20 | the nickname and roles setters do not interfere with each other's getter |
| GeoServer.SetWorkspaceName | src/app/upload.service.ts:371-377 | a user with the provider role works in the shared workspace; any other user works in the workspace named after their nickname |
| GeoServer.WorkspaceIsolation | src/app/upload.service.ts:371-377 | all providers share one workspace; two other users with different nicknames upload into different datastores; a null nickname shares the workspace of a user nicknamed "null" |
| GeoServer.CheckWorkspace | src/app/upload.service.ts:36-53 | one authorised listing request; true exactly when the listing names the workspace; a failed listing is rethrown |
| GeoServer.EnsureWorkspace | src/app/upload.service.ts:193-200 | the listing request comes first; a creation request follows exactly when the listing succeeded without the workspace; only a failed listing aborts |
| GeoServer.EnsureWorkspaceRequests | src/app/upload.service.ts:36-74 | both requests go to the workspaces endpoint, and a workspace POST is issued exactly when a successful listing lacked the workspace |
| GeoServer.CheckCoverageStoreExists | src/app/upload.service.ts:76-97 | one GET of the coverage store; it answers false only for a 404 reply and true for every other reply, errors included |
| GeoServer.CreateCoverageStore | src/app/upload.service.ts:99-131 | one POST to the workspace's coverage stores, whose XML names the layer, the GeoTIFF type and the workspace; the result is true whatever the server says |
| GeoServer.UploadTiff | src/app/upload.service.ts:159-179 | one PUT of the form's file to the store's `file.geotiff` endpoint; the result is true whatever the server says |
| GeoServer.CheckDataStore | src/app/upload.service.ts:225-247 | one GET of the datastore; true for 200, false for a 404 reply, and any other error becomes a thrown failure carrying its status |
| GeoServer.UploadRasterLayer | src/app/upload.service.ts:182-223 | without a token nothing is sent; the workspace listing comes first; it returns false exactly when the coverage-store probe sees the store; it returns true exactly when it reaches the creation, and then the last request is the GeoTIFF PUT of the form's file |
| GeoServer.RasterIgnoresUnawaitedReplies | src/app/upload.service.ts:182-223 | replies to the requests the raster upload does not await (workspace creation, store creation, file upload) cannot change its trace or result |
| GeoServer.RasterChecksBeforeCreating | src/app/upload.service.ts:193-214 | every coverage-store creation is preceded by the workspace listing and the store probe |
| GeoServer.RasterPutsOnlyTiff | src/app/upload.service.ts:159-179 | the only PUT a raster upload can issue is to the GeoTIFF endpoint |
| GeoServer.UploadVectorLayer | src/app/upload.service.ts:314-365 | a missing file name fails before any request; a missing token fails next; the workspace is listed, and created when missing; a failed listing aborts with the listing failure right after the listing request; once the workspace is settled the layer's datastore is probed; a probe error other than 404 aborts with its status; an existing datastore ends the call right after the probe, without an upload or a publication; the shapefile is uploaded exactly when the probe found no store |
| GeoServer.StoreAndPublish | src/app/upload.service.ts:336-362 | the shapefile PUT without configuration comes first; a rejected PUT stops there; otherwise one feature-type POST follows |
| GeoServer.VectorUploadThenPublish | src/app/upload.service.ts:329-362 | once the datastore is absent, the multipart PUT is followed by a feature-type POST named and titled by the layer name, whose native name is the file name without its extension; the outcome fails exactly when one of the two requests is rejected |
| GeoServer.NativeNameExamples | src/app/upload.service.ts:317 | the native name keeps every dot but the last ("a.b.zip" gives "a.b") and is empty for a name without a dot |
| GeoServer.VectorPutsOnlyShapefile | src/app/upload.service.ts:336-344 | the only PUT a vector upload can issue is the shapefile upload into the layer's datastore |
| GeoServer.UploadGeoJson | src/app/upload.service.ts:279-311 | without a token nothing is sent; an empty workspace name is replaced by the fallback workspace for good; one PUT of the zipped features goes to the fixed vector store; a rejected PUT throws with its status |
| GeoServer.GeoJsonIgnoresLayerName | src/app/upload.service.ts:279-311 | the layer name passed to the GeoJSON upload has no effect |
| GeoServer.GeoJsonSettlesWorkspace | src/app/upload.service.ts:301 | after an authorised GeoJSON upload the workspace name is always set |
| GeoServer.DeleteLayers | src/app/upload.service.ts:378-399 | one authorised DELETE per listed layer, vector datastores first with a recursive delete, then raster coverage stores, in list order, in the user's workspace |
| Js.LastIndexOf | src/app/index/index.component.ts:55 | the result is -1 exactly when the character is absent, and otherwise is an index holding it with no later occurrence |
| Js.Substring | src/app/index/index.component.ts:55 | within range it is the slice between the bounds; with a negative end it is the prefix up to the clamped start, so `substring(0, -1)` is "" |
| Js.StripExtensionIsPrefix | src/app/upload.service.ts:317 | splitting at '.', dropping the last piece and rejoining cuts the name at its last '.', which is `substring(0, lastIndexOf('.'))`, and gives "" when there is no '.' |
| Js.JoinSplit | src/app/upload.service.ts:317 | joining the pieces of a split with the same separator gives back the string |
| Js.SplitAtLast | src/app/upload.service.ts:317 | the split of a name is the split of the part before its last '.' followed by the text after it |
| Js.HexValueOfToHexString | src/app/map/map.component.ts:494-500 | `toString(16)` yields hexadecimal digits whose value is the number |
| Js.ToHexStringLength | src/app/map/map.component.ts:494-500 | a number in 16^k..16^(k+1)-1 prints as k+1 hexadecimal digits |
| Js.HexValueToUpper | src/app/map/map.component.ts:499 | upper-casing hexadecimal digits keeps their value |
| Js.FormGet | src/app/upload.service.ts:315 | `FormData.get` is null exactly when no part has the key, and otherwise returns the value of the first part with that key |
| Seqs.FilterSpec | src/app/map/map.component.ts:314-324 | a filter keeps exactly the elements meeting the predicate, in their original order |
| Seqs.FilterPartition | src/app/map/map.component.ts:314-324 | filtering by a predicate and by its negation splits the list, as a multiset, into two parts |
| Seqs.RemoveEachIsWithout | src/app/layer-list/layer-list.component.ts:31-35 | on duplicate-free lists, removing each listed element once leaves the unlisted elements in their original order |
| Features.Set | src/app/layer-features-table/layer-features-table.component.ts:27 | setting a property makes it read back, leaves the other properties alone, appends a new key and keeps an existing key's position |
| Features.AssignSpec | src/app/layer-features-table/layer-features-table.component.ts:27 | the same for the raw property list, proved by induction on it |
| Features.ExtractFields | src/app/layer-features-table/layer-features-table.component.ts:20-23 | the columns are the first feature's keys in order, without the geometry, and none for an empty table |
| Features.UpdateValue | src/app/layer-features-table/layer-features-table.component.ts:25-29 | the edited cell reads back the new value; every other cell, row and column is unchanged |
| Features.DeleteRow | src/app/layer-features-table/layer-features-table.component.ts:31-34 | `splice(index, 1)`: a valid index removes that row; a negative index counts from the end; an index past the end removes nothing |
| Features.DeleteRowRemovesOne | src/app/layer-features-table/layer-features-table.component.ts:31-34 | deleting a valid row removes exactly that one feature, as a multiset |
| Features.AddField | src/app/layer-features-table/layer-features-table.component.ts:36-44 | an empty or already-present name changes nothing; a new name is appended as a column and set to "" in every feature |
| Features.AddFieldDistinctAndIdempotent | src/app/layer-features-table/layer-features-table.component.ts:36-44 | adding a field keeps the columns distinct, and adding it twice equals adding it once |
| LayerList.ToggleLayerVisibility | src/app/layer-list/layer-list.component.ts:15-18 | the visibility flips and nothing else changes |
| LayerList.ToggleTwice | src/app/layer-list/layer-list.component.ts:15-18 | toggling twice restores the layer |
| LayerList.UpdateLayerOrderOnMap | src/app/layer-list/layer-list.component.ts:25-46 | without a map nothing changes; otherwise the listed layers are removed from the collection and pushed back in list order, each takes the z-index of its last list position plus one, and unlisted layers keep theirs |
| LayerList.RemoveListed | src/app/layer-list/layer-list.component.ts:31-35 | the removal loop removes one occurrence of each listed layer the collection holds |
| LayerList.PushAll | src/app/layer-list/layer-list.component.ts:38-40 | the push loop appends the listed layers in order |
| LayerList.AssignZIndices | src/app/layer-list/layer-list.component.ts:43-45 | the z-index loop gives each listed layer its last position plus one and leaves every other layer's index alone |
| LayerList.ReorderShape | src/app/layer-list/layer-list.component.ts:25-46 | for distinct layers the new collection is the unlisted layers, in their old order, followed by the list, and the z-indices the loop assigns strictly increase along the list |
| MapView.VectorEntriesAreAdmitted | src/app/map/map.component.ts:119-157 | a feature type is listed exactly when it has both a Name and a Title element (their text may be empty), and its entry takes that title and name and is unselected |
| MapView.LoadVectorLayers | src/app/map/map.component.ts:119-157 | the shared vector list grows by the admitted feature types and the combined list is rebuilt from both vector lists |
| MapView.LoadPersonalVectorLayers | src/app/map/map.component.ts:159-197 | the personal vector list grows by the admitted feature types and the combined list is rebuilt |
| MapView.VectorLoadersCommute | src/app/map/map.component.ts:119-197 | the two vector loaders may finish in either order with the same lists and the same combined list |
| MapView.LoadRasterEntries | src/app/map/map.component.ts:209-239 | the layer loop keeps the named layers without the "features" keyword, as unselected entries titled by their name |
| MapView.HasFeaturesKeyword | src/app/map/map.component.ts:217-222 | the keyword loop finds "features" exactly when it is among the keywords |
| MapView.LoadRasterLayers | src/app/map/map.component.ts:201-282 | the shared or the personal raster list, and only that one, grows by the raster entries |
| MapView.RasterFilterExact | src/app/map/map.component.ts:209-239 | every raster record yields an entry and every entry comes from a raster record |
| MapView.DeleteRequests | src/app/map/map.component.ts:314-324 | one DELETE per selected personal layer, vector stores first, each to its layer's store |
| MapView.DeleteLayers | src/app/map/map.component.ts:314-324 | after the requests each personal list keeps exactly its unselected entries; the shared lists and the combined list are untouched |
| MapView.DeletePartitions | src/app/map/map.component.ts:314-324 | the selected and unselected entries together are the whole list |
| MapView.DeleteLeavesCombinedStale | src/app/map/map.component.ts:314-324 | deleting a selected personal vector layer leaves the combined list out of date |
| MapView.LegendFor | src/app/map/map.component.ts:373-425 | the three vegetation indices NDVI, CVI and EVI, matched after upper-casing, get the eight-step scale titled "<INDEX> цвета"; any other name gets the two-step default titled "<name> Color Scale" |
| MapView.LegendIgnoresCase | src/app/map/map.component.ts:373 | names of a vegetation index that differ only in ASCII letter case get the same legend |
| MapView.LegendLowerCaseExample | src/app/map/map.component.ts:373-387 | "ndvi" and "NDVI" get the same legend |
| MapView.LegendMixedCaseExample | src/app/map/map.component.ts:373-425 | "Evi" is titled with the upper-cased name |
| MapView.LegendDefaultExample | src/app/map/map.component.ts:418-424 | an unknown index keeps its name in the title and gets two entries |
| MapView.LayoutLegend | src/app/map/map.component.ts:434-452 | rows are drawn from y = 35 in steps of 12, one per entry, captioned "value - label"; the gradient runs from the first entry's value to the last's |
| MapView.RgbToHex | src/app/map/map.component.ts:494-500 | the result is '#' and six upper-case hexadecimal digits whose value packs the red, green and blue channels |
| MapView.RgbToHexInjective | src/app/map/map.component.ts:494-500 | different colours give different strings |
| CreateVector.Toggle | src/app/create-vector/create-vector.component.ts:148 | `classList.toggle` flips one button's active state and no other's |
| CreateVector.RemoveInteraction | src/app/create-vector/create-vector.component.ts:121-123 | `removeInteraction` removes one occurrence of the interaction, and an unset one removes nothing |
| CreateVector.TakeOffAllClears | src/app/create-vector/create-vector.component.ts:119-123 | removing the draw, snap and modify interactions empties the map when the held tools are consistent |
| CreateVector.AddModifyConsistent | src/app/create-vector/create-vector.component.ts:134-139 | adding a fresh modify interaction keeps the held tools and the map in step |
| CreateVector.TakeOffModifyConsistent | src/app/create-vector/create-vector.component.ts:141-142 | removing the modify interaction keeps the tools consistent and leaves no modify interaction on the map |
| CreateVector.TakeOffDrawAndSnapConsistent | src/app/create-vector/create-vector.component.ts:156-157 | removing the draw and snap interactions keeps the tools consistent and leaves at most the modify interaction |
| CreateVector.AddDrawAndSnapConsistent | src/app/create-vector/create-vector.component.ts:164-173 | adding fresh draw and snap interactions keeps the tools consistent |
| CreateVector.ToggleTable | src/app/create-vector/create-vector.component.ts:95-103 | the table flips; opening it over features without columns takes the columns from the first feature |
| CreateVector.ToggleCreatingVector | src/app/create-vector/create-vector.component.ts:118-131 | the mode flips; switching off only removes interactions, switching on changes no tool |
| CreateVector.SwitchingOffClearsMap | src/app/create-vector/create-vector.component.ts:118-131 | leaving drawing mode leaves no interaction on the map |
| CreateVector.EditDrawing | src/app/create-vector/create-vector.component.ts:132-145 | the edit button flips; turning it on with a draw tool adds a modify interaction; turning it off removes the held one |
| CreateVector.DrawVectorLayer | src/app/create-vector/create-vector.component.ts:146-184 | the style's button flips; a previous draw tool is removed and the drawing source cleared of all features; activating installs a draw tool of that style and a snap and resets the columns and the table |
| CreateVector.FinishSketch | src/app/create-vector/create-vector.component.ts:175-183 | a finished sketch from the active draw tool becomes a feature whose type is the style and whose name is the style and a timestamp |
| CreateVector.OnFeaturesChange | src/app/create-vector/create-vector.component.ts:210-213 | the table's edited features replace the editor's |
| CreateVector.OnFieldsChange | src/app/create-vector/create-vector.component.ts:214-216 | the table's edited columns replace the editor's |
| CreateVector.SaveVectorLayer | src/app/create-vector/create-vector.component.ts:186-208 | nothing is uploaded without features; otherwise the features go to the GeoJSON upload as "layer_<time>" and the button ends enabled with its floppy label |
| CreateVector.StepPreservesConsistent | src/app/create-vector/create-vector.component.ts:95-216 | every handler keeps the map's interactions a duplicate-free subset of the current Draw, Snap and Modify, with a Modify on the map only while the edit button is active |
| CreateVector.RunPreservesConsistent | src/app/create-vector/create-vector.component.ts:95-216 | any sequence of handlers from a consistent editor stays consistent |
| CreateVector.ReachableConsistent | src/app/create-vector/create-vector.component.ts:95-216 | every editor reachable from the initial one is consistent |
| IndexPage.OnFileSelected | src/app/index/index.component.ts:41-46 | a picked file replaces only its band's control; picking nothing changes nothing |
| IndexPage.IndexFormParts | src/app/index/index.component.ts:58-68 | the index form holds red and near-infrared, plus blue for EVI and green for CVI, in that order, each with its image |
| IndexPage.UploadImages | src/app/index/index.component.ts:47-74 | without red or near-infrared nothing is sent; otherwise the red name without extension is kept, loading starts, and the form goes to the index service under the index name |
| IndexPage.UploadedNameIsBaseName | src/app/index/index.component.ts:55 | the kept name is the red image's name without its extension, "" when it has no '.' |
| IndexPage.IndexFormHasExactlyItsParts | src/app/index/index.component.ts:58-68 | a key is in the form exactly when the index needs it |
| IndexPage.OnIndexReply | src/app/index/index.component.ts:75-107 | an error only stops loading; a blob is kept as "<layer>.tiff" and published as a raster layer |
| IndexPage.OnPublishClick | src/app/index/index.component.ts:112-135 | without a result nothing happens; a completed publication ends with the GeoTIFF upload of that result file |
| IndexPage.PublishRepeatsAutomaticUpload | src/app/index/index.component.ts:96-127 | pressing publish after the result arrives calls the raster upload with the same form and layer name as the automatic upload, so against the same server answers it issues the same requests |
| IndexPage.PublishAfterAutomaticUploadHitsGuard | src/app/index/index.component.ts:96-127 | once the automatic upload has created the coverage store, a later publish finds the store, answers false and neither creates a store nor uploads the file again |
| IndexPage.PublishedLayerName | src/app/index/index.component.ts:47-101 | the result is published as "<index>_<red image's base name>" |
| UploadPage.OnFileSelected | src/app/upload/upload.component.ts:27-30 | the picked file, or null, is kept and patched into the form |
| UploadPage.SwitchTab | src/app/upload/upload.component.ts:53-55 | only the tab changes |
| UploadPage.OnCancel | src/app/upload/upload.component.ts:57-60 | every control and the kept file become null and the tab stays |
| UploadPage.OnSubmit | src/app/upload/upload.component.ts:32-51 | the form carries the kept file, the layer name, and for vectors the date; the vector tab starts the vector upload and the raster tab the raster upload |
| UploadPage.SubmissionReachesItsStore | src/app/upload/upload.component.ts:32-51 | a raster submission never uploads a shapefile, a completed one uploads the GeoTIFF, and a vector submission never uploads a GeoTIFF |
| UploadPage.CancelledSubmission | src/app/upload/upload.component.ts:32-60 | after a cancel, a vector submission fails on the missing file name before any request, while a raster one proceeds with the text "null" as its file |

## Left out

- HTTP transport, timing and the interleaving of un-awaited promises. A request is recorded in the trace when it is issued, and an un-awaited request's reply is never observed.
- Request headers other than Authorization. Every request also sends `role: ADMIN`, and the XML and upload requests declare a `Content-Type` (for instance src/app/upload.service.ts:338-343 and 356-361). A `Request` keeps only its method, URL, Authorization and body. So the model does not show that the shapefile PUT of `GeoServer.UploadVectorLayer` declares `application/zip` while its body is the multipart form data.
- The bodies of replies. The workspace listing, the feature-type and layer lists and the index service's blob are taken as already parsed records. DOMParser parsing and XML whitespace are not modelled.
- OpenLayers itself. Rendering, the WMS/WFS sources and their URLs, styles, controls and feature object identity are not modelled. Features are ordered property lists. The drawing source's content is the editor's `features` sequence.
- CreateVector.ToggleTable: the drawing source is modelled as an insertion-ordered sequence with new sketches appended. OpenLayers returns a vector source's features in spatial-index order instead. That order differs once the source holds more than a handful of features, and after a Modify edit. So the feature whose keys fill the table's columns (`features[0]`) may differ from the model's. The same holds for the order in which `CreateVector.SaveVectorLayer` uploads the features.
- `getIndexColor` and `addColorGradient` are not modelled, because they are floating-point colour interpolation on a canvas.
- `moveItemInArray` in `drop` is not modelled. The reordered list is an input to `LayerList.UpdateLayerOrderOnMap`.
- LayerList.PushAll: the map's layer collection is unique in OpenLayers, so pushing a layer that the list holds twice throws. The model appends the duplicate instead. `LayerList.ReorderShape` states its result for distinct layers only.
- shp-write, JSZip and `atob` are not modelled. The zipped shapefile is the abstract body `ShapefileZip(features)`.
- `Date.now()` is a parameter `now`.
- Alerts, `console`, `localStorage`, `window.open`, `URL.createObjectURL`, the download anchor and button colours are not modelled, because they have no effect on the state modelled.
- `openTable` is not modelled.
- The intermediate "saving" label of `saveVectorLayer` is not modelled, because only its final state is observable after the call.
- The export-map, authentication and routing components are not part of this model.
- Features.ExtractFields: `Object.keys` is modelled as insertion order. JavaScript lists integer-like keys such as "1" first, in ascending numeric order. `addField` accepts any prompt text, so for such field names the source's column order differs from the model's, where a new key is always appended last.
- UploadPage.OnSubmit: the form group declares no validators, so `valid` is always true and the invalid-form branch cannot happen.
- UploadPage.OnSubmit: an undefined `files[0]` is treated like null and rendered as "null", not "undefined".
- MapView.RgbToHex: requires each channel to be an integer in 0..255. That is the range canvas colours have. Outside it the source's string is not a colour.
- Features.UpdateValue: requires the edited row to exist. The source receives the feature object from the rendered table, so it is always one of the table's rows.
- Js.ToUpper: upper-cases ASCII letters only. JavaScript's `toUpperCase` also maps some non-ASCII characters onto ASCII letters, for example 'ı' (U+0131) to 'I' and 'ſ' to 'S'. So "ndvı" selects the NDVI legend in the source, while `MapView.LegendFor` gives it the default legend.
- MapView.LegendFor: the gradient's colours are not modelled, only the entries, the title and their order.

=== FILE: createvector.dfy ===
/** The vector-drawing toolbar (src/app/create-vector/create-vector.component.ts):
    the flags, lists and map interactions its handlers change. OpenLayers'
    Draw, Snap and Modify interactions are reduced to their identities; the
    map's interaction collection is a sequence of them. */
module CreateVector {
  import opened Js
  import Seqs
  import Features
  import GeoServer

  datatype DrawStyle = Point | LineString | Polygon

  function StyleName(s: DrawStyle): string
  {
    match s
    case Point => "Point"
    case LineString => "LineString"
    case Polygon => "Polygon"
  }

  /** The toolbar's buttons; each keeps its own "active" class. */
  datatype Button = PointButton | LineButton | PolygonButton | EditButton | SaveButton

  function DrawButton(s: DrawStyle): Button
  {
    match s
    case Point => PointButton
    case LineString => LineButton
    case Polygon => PolygonButton
  }

  /** `button.classList.toggle('active')`: only that button changes. */
  function Toggle(active: set<Button>, b: Button): (r: set<Button>)
    ensures (b in r) == (b !in active)
    ensures r - {b} == active - {b}
  {
    if b in active then active - {b} else active + {b}
  }

  // ---------------------------------------------------------------------
  // Interactions

  /** A Draw interaction: its identity and the style it draws. */
  datatype DrawObj = DrawObj(id: nat, style: DrawStyle)

  /** An interaction object on the map; Snap and Modify objects are told
      apart by their identity alone. */
  datatype Interaction = DrawI(d: DrawObj) | SnapI(snapId: nat) | ModifyI(modifyId: nat)

  /** The component's `draw`, `snap` and `modify` fields — the last object
      of each kind created, None before the first, never unset afterwards —
      the map's interaction collection, and the next unused identity. */
  datatype Tools = Tools(
    draw: Option<DrawObj>,
    snap: Option<nat>,
    modifier: Option<nat>,
    onMap: seq<Interaction>,
    nextId: nat)

  const NoTools: Tools := Tools(None, None, None, [], 0)

  function DrawOf(t: Tools): Option<Interaction>
  {
    if t.draw.Some? then Some(DrawI(t.draw.value)) else None
  }

  function SnapOf(t: Tools): Option<Interaction>
  {
    if t.snap.Some? then Some(SnapI(t.snap.value)) else None
  }

  function ModifierOf(t: Tools): Option<Interaction>
  {
    if t.modifier.Some? then Some(ModifyI(t.modifier.value)) else None
  }

  /** `map.removeInteraction(x)`: removes x if the map holds it; an unset
      field removes nothing. */
  function RemoveInteraction(xs: seq<Interaction>, x: Option<Interaction>): (r: seq<Interaction>)
    ensures x.None? ==> r == xs
    ensures x.Some? ==> multiset(r) == multiset(xs) - multiset{x.value}
  {
    if x.Some? then Seqs.RemoveFirst(xs, x.value) else xs
  }

  /** Removing an interaction only ever takes interactions away. */
  lemma RemoveOnlyRemoves(xs: seq<Interaction>, x: Option<Interaction>)
    ensures |RemoveInteraction(xs, x)| <= |xs|
    ensures forall y :: y in RemoveInteraction(xs, x) ==> y in xs
  {
    var r := RemoveInteraction(xs, x);
    forall y | y in r
      ensures y in xs
    {
      assert multiset(r)[y] <= multiset(xs)[y];
    }
    assert |multiset(r)| <= |multiset(xs)|;
  }

  /** Removing from a duplicate-free map removes every copy. */
  lemma RemoveKeeps(xs: seq<Interaction>, x: Option<Interaction>)
    requires Seqs.NoDup(xs)
    ensures Seqs.NoDup(RemoveInteraction(xs, x))
    ensures forall y :: y in RemoveInteraction(xs, x) ==> y in xs && Some(y) != x
  {
    RemoveOnlyRemoves(xs, x);
    if x.Some? {
      Seqs.RemoveFirstNoDup(xs, x.value);
    }
  }

  /** The interaction is the one its field currently holds. */
  predicate Current(t: Tools, x: Interaction)
  {
    match x
    case DrawI(d) => t.draw == Some(d)
    case SnapI(i) => t.snap == Some(i)
    case ModifyI(i) => t.modifier == Some(i)
  }

  /** The map holds only the current Draw, Snap and Modify, each at most
      once, and every identity in use is below `nextId`. */
  predicate ToolsConsistent(t: Tools)
  {
    && Seqs.NoDup(t.onMap)
    && (forall x :: x in t.onMap ==> Current(t, x))
    && (t.draw.Some? ==> t.draw.value.id < t.nextId)
    && (t.snap.Some? ==> t.snap.value < t.nextId)
    && (t.modifier.Some? ==> t.modifier.value < t.nextId)
  }

  predicate NoModify(xs: seq<Interaction>)
  {
    forall x :: x in xs ==> !x.ModifyI?
  }

  predicate OnlyModify(xs: seq<Interaction>)
  {
    forall x :: x in xs ==> x.ModifyI?
  }

  /** A current interaction is the one held by its field. */
  lemma CurrentIsHeld(t: Tools)
    ensures forall x :: Current(t, x) ==> Some(x) == DrawOf(t) || Some(x) == SnapOf(t) || Some(x) == ModifierOf(t)
  {
  }

  /** Takes the current Draw, Snap and Modify off the map. */
  function TakeOffAll(t: Tools): (r: Tools)
    ensures r.draw == t.draw && r.snap == t.snap && r.modifier == t.modifier && r.nextId == t.nextId
    ensures |r.onMap| <= |t.onMap|
    ensures forall x :: x in r.onMap ==> x in t.onMap
  {
    var xs1 := RemoveInteraction(t.onMap, DrawOf(t));
    var xs2 := RemoveInteraction(xs1, SnapOf(t));
    RemoveOnlyRemoves(t.onMap, DrawOf(t));
    RemoveOnlyRemoves(xs1, SnapOf(t));
    RemoveOnlyRemoves(xs2, ModifierOf(t));
    t.(onMap := RemoveInteraction(xs2, ModifierOf(t)))
  }

  /** From a consistent state, taking the current interactions off leaves
      the map without any. */
  lemma {:induction false} TakeOffAllClears(t: Tools)
    requires ToolsConsistent(t)
    ensures TakeOffAll(t).onMap == []
    ensures ToolsConsistent(TakeOffAll(t))
  {
    var xs1 := RemoveInteraction(t.onMap, DrawOf(t));
    var xs2 := RemoveInteraction(xs1, SnapOf(t));
    var xs3 := RemoveInteraction(xs2, ModifierOf(t));
    RemoveKeeps(t.onMap, DrawOf(t));
    RemoveKeeps(xs1, SnapOf(t));
    RemoveKeeps(xs2, ModifierOf(t));
    CurrentIsHeld(t);
    assert |xs3| > 0 ==> xs3[0] in xs3;
  }

  /** Adds a fresh Modify to the map. */
  function AddModify(t: Tools): (r: Tools)
    ensures r.draw == t.draw && r.snap == t.snap
    ensures r.modifier.Some? && r.modifier.value >= t.nextId
    ensures r.onMap == t.onMap + [ModifyI(r.modifier.value)]
  {
    t.(modifier := Some(t.nextId), onMap := t.onMap + [ModifyI(t.nextId)], nextId := t.nextId + 1)
  }

  /** Takes the current Modify, if any, off the map. */
  function TakeOffModify(t: Tools): (r: Tools)
    ensures r.draw == t.draw && r.snap == t.snap && r.modifier == t.modifier && r.nextId == t.nextId
    ensures |r.onMap| <= |t.onMap|
    ensures t.modifier.Some? ==> multiset(r.onMap) == multiset(t.onMap) - multiset{ModifyI(t.modifier.value)}
    ensures t.modifier.None? ==> r.onMap == t.onMap
  {
    RemoveOnlyRemoves(t.onMap, ModifierOf(t));
    t.(onMap := RemoveInteraction(t.onMap, ModifierOf(t)))
  }

  /** Takes the current Draw and Snap, if any, off the map. */
  function TakeOffDrawAndSnap(t: Tools): (r: Tools)
    ensures r.draw == t.draw && r.snap == t.snap && r.modifier == t.modifier && r.nextId == t.nextId
    ensures |r.onMap| <= |t.onMap|
    ensures forall x :: x in r.onMap ==> x in t.onMap
  {
    var xs1 := RemoveInteraction(t.onMap, DrawOf(t));
    RemoveOnlyRemoves(t.onMap, DrawOf(t));
    RemoveOnlyRemoves(xs1, SnapOf(t));
    t.(onMap := RemoveInteraction(xs1, SnapOf(t)))
  }

  /** Adds a fresh Draw of the style and a fresh Snap, in that order. */
  function AddDrawAndSnap(t: Tools, style: DrawStyle): (r: Tools)
    ensures r.modifier == t.modifier
    ensures r.draw.Some? && r.draw.value.style == style && r.draw.value.id >= t.nextId
    ensures r.snap.Some? && r.snap.value >= t.nextId
    ensures r.onMap == t.onMap + [DrawI(r.draw.value), SnapI(r.snap.value)]
  {
    var d := DrawObj(t.nextId, style);
    t.(draw := Some(d), snap := Some(t.nextId + 1), onMap := t.onMap + [DrawI(d), SnapI(t.nextId + 1)],
       nextId := t.nextId + 2)
  }

  lemma NoDupAppend(a: seq<Interaction>, b: seq<Interaction>)
    requires Seqs.NoDup(a) && Seqs.NoDup(b)
    requires forall x :: x in b ==> x !in a
    ensures Seqs.NoDup(a + b)
  {
    var ab := a + b;
    forall i, j | 0 <= i < j < |ab|
      ensures ab[i] != ab[j]
    {
      if j >= |a| {
        assert ab[j] == b[j - |a|];
        if i >= |a| {
          assert ab[i] == b[i - |a|];
        } else {
          assert ab[i] == a[i];
          assert a[i] in a;
        }
      } else {
        assert ab[i] == a[i] && ab[j] == a[j];
      }
    }
  }

  /** With no Modify on the map, a fresh Modify keeps it consistent. */
  lemma AddModifyConsistent(t: Tools)
    requires ToolsConsistent(t) && NoModify(t.onMap)
    ensures ToolsConsistent(AddModify(t))
  {
    NoDupAppend(t.onMap, [ModifyI(t.nextId)]);
  }

  /** Taking the current Modify off a consistent map leaves no Modify. */
  lemma TakeOffModifyConsistent(t: Tools)
    requires ToolsConsistent(t)
    ensures ToolsConsistent(TakeOffModify(t))
    ensures NoModify(TakeOffModify(t).onMap)
  {
    RemoveKeeps(t.onMap, ModifierOf(t));
  }

  /** Taking the Draw and Snap off a consistent map leaves at most the
      current Modify. */
  lemma TakeOffDrawAndSnapConsistent(t: Tools)
    requires ToolsConsistent(t)
    ensures ToolsConsistent(TakeOffDrawAndSnap(t))
    ensures OnlyModify(TakeOffDrawAndSnap(t).onMap)
  {
    var xs1 := RemoveInteraction(t.onMap, DrawOf(t));
    RemoveKeeps(t.onMap, DrawOf(t));
    RemoveKeeps(xs1, SnapOf(t));
    CurrentIsHeld(t);
  }

  /** A fresh Draw and Snap on a map holding only Modify objects keep it
      consistent. */
  lemma AddDrawAndSnapConsistent(t: Tools, style: DrawStyle)
    requires ToolsConsistent(t) && OnlyModify(t.onMap)
    ensures ToolsConsistent(AddDrawAndSnap(t, style))
  {
    var r := AddDrawAndSnap(t, style);
    var d := DrawI(r.draw.value);
    var s := SnapI(r.snap.value);
    assert Seqs.NoDup([d, s]);
    NoDupAppend(t.onMap, [d, s]);
  }

  // ---------------------------------------------------------------------
  // The component

  /** The save button's markup before its first use. */
  const SaveIcon := "<i class=\"bi bi-floppy\"></i>"
  /** The save button's text after a save attempt. */
  const SavedLabel := "💾"

  /** The component's state; `features` is the drawing source's content. */
  datatype Editor = Editor(
    isCreatingVector: bool,
    showTable: bool,
    fields: seq<string>,
    features: seq<Features.Feature>,
    tools: Tools,
    active: set<Button>,
    saveDisabled: bool,
    saveLabel: string)

  const Initial: Editor := Editor(false, false, [], [], NoTools, {}, false, SaveIcon)

  /** The map's interactions are consistent, and a Modify is on the map
      only while the edit button is active. */
  predicate Consistent(e: Editor)
  {
    ToolsConsistent(e.tools) && (EditButton !in e.active ==> NoModify(e.tools.onMap))
  }

  /** `toggleTable`: flips the table; the columns are filled from the first
      feature only when the table opens with no columns and features exist. */
  function ToggleTable(e: Editor): (r: Editor)
    ensures r.showTable == !e.showTable
    ensures r.showTable && |e.fields| == 0 && |e.features| > 0 ==>
              && Features.GeometryKey !in r.fields
              && Seqs.Subsequence(r.fields, Features.Keys(e.features[0]))
              && (forall k :: k in Features.Keys(e.features[0]) && k != Features.GeometryKey ==> k in r.fields)
    ensures !(r.showTable && |e.fields| == 0 && |e.features| > 0) ==> r.fields == e.fields
    ensures r.features == e.features && r.tools == e.tools && r.active == e.active
  {
    var shown := !e.showTable;
    if shown && |e.fields| == 0 && |e.features| > 0 then
      e.(showTable := shown, fields := Features.ExtractFields(e.features))
    else e.(showTable := shown)
  }

  /** `toggleCreatingVector`: switching off takes the current Draw, Snap and
      Modify off the map; switching on adds nothing back. The drawn features
      always stay. */
  function ToggleCreatingVector(e: Editor): (r: Editor)
    ensures r.isCreatingVector == !e.isCreatingVector
    ensures r.features == e.features && r.fields == e.fields && r.showTable == e.showTable
    ensures |r.tools.onMap| <= |e.tools.onMap|
    ensures forall x :: x in r.tools.onMap ==> x in e.tools.onMap
    ensures !e.isCreatingVector ==> r.tools == e.tools
    ensures r.active == e.active
  {
    if e.isCreatingVector then e.(isCreatingVector := false, tools := TakeOffAll(e.tools))
    else e.(isCreatingVector := true)
  }

  /** Switching drawing off from a consistent state leaves the map without
      any drawing interaction. */
  lemma SwitchingOffClearsMap(e: Editor)
    requires Consistent(e) && e.isCreatingVector
    ensures ToggleCreatingVector(e).tools.onMap == []
  {
    TakeOffAllClears(e.tools);
  }

  /** `editDrawing`: toggles the edit button; turning it on adds a fresh
      Modify only when a draw has been created, turning it off removes the
      current Modify. */
  function EditDrawing(e: Editor): (r: Editor)
    ensures (EditButton in r.active) == (EditButton !in e.active)
    ensures r.features == e.features && r.fields == e.fields && r.showTable == e.showTable
    ensures r.tools.draw == e.tools.draw && r.tools.snap == e.tools.snap
    // the map gains an interaction exactly when the button turns on and a draw exists
    ensures |r.tools.onMap| > |e.tools.onMap| <==> EditButton !in e.active && e.tools.draw.Some?
    ensures EditButton !in e.active && e.tools.draw.Some? ==>
              && r.tools.modifier.Some? && r.tools.modifier.value >= e.tools.nextId
              && r.tools.onMap == e.tools.onMap + [ModifyI(r.tools.modifier.value)]
    ensures EditButton in e.active && e.tools.modifier.Some? ==>
              multiset(r.tools.onMap) == multiset(e.tools.onMap) - multiset{ModifyI(e.tools.modifier.value)}
  {
    if EditButton !in e.active then
      var on := e.(active := e.active + {EditButton});
      if e.tools.draw.Some? then on.(tools := AddModify(e.tools)) else on
    else e.(active := e.active - {EditButton}, tools := TakeOffModify(e.tools))
  }

  /** `drawVectorLayer`: toggles the style's button; any earlier Draw is
      taken off the map and the source cleared, any earlier Snap is taken
      off; only when the button turns on are the columns and the table reset
      and a fresh Draw and Snap added. */
  function DrawVectorLayer(e: Editor, style: DrawStyle): (r: Editor)
    ensures (DrawButton(style) in r.active) == (DrawButton(style) !in e.active)
    // once a draw exists, every call clears the source, whichever way the button goes
    ensures e.tools.draw.Some? ==> r.features == []
    ensures e.tools.draw.None? ==> r.features == e.features
    ensures DrawButton(style) in e.active ==>
              && r.fields == e.fields && r.showTable == e.showTable
              && |r.tools.onMap| <= |e.tools.onMap|
              && (forall x :: x in r.tools.onMap ==> x in e.tools.onMap)
    ensures r.active - {DrawButton(style)} == e.active - {DrawButton(style)}
    ensures DrawButton(style) !in e.active ==>
              && r.fields == [] && !r.showTable
              && r.tools.draw.Some? && r.tools.draw.value.style == style
              && r.tools.draw.value.id >= e.tools.nextId
              && r.tools.snap.Some? && r.tools.snap.value >= e.tools.nextId
              && |r.tools.onMap| >= 2
              && r.tools.onMap[|r.tools.onMap| - 2..] == [DrawI(r.tools.draw.value), SnapI(r.tools.snap.value)]
    ensures r.tools.modifier == e.tools.modifier
  {
    var toggled := Toggle(e.active, DrawButton(style));
    var cleared := if e.tools.draw.Some? then [] else e.features;
    var off := TakeOffDrawAndSnap(e.tools);
    if DrawButton(style) in e.active then
      e.(active := toggled, features := cleared, tools := off)
    else
      var t := AddDrawAndSnap(off, style);
      assert t.onMap[|t.onMap| - 2..] == [DrawI(t.draw.value), SnapI(t.snap.value)];
      e.(active := toggled, features := cleared, fields := [], showTable := false, tools := t)
  }

  /** The `drawend` listener: when the map holds the current Draw, the
      sketch becomes a feature whose `type` is the drawing style and whose
      `name` is the style and the time. */
  function FinishSketch(e: Editor, geometry: string, now: nat): (r: Editor)
    ensures e.tools.draw.None? || DrawI(e.tools.draw.value) !in e.tools.onMap ==> r == e
    ensures e.tools.draw.Some? && DrawI(e.tools.draw.value) in e.tools.onMap ==>
              && |r.features| == |e.features| + 1
              && r.features[..|e.features|] == e.features
    ensures e.tools.draw.Some? && DrawI(e.tools.draw.value) in e.tools.onMap ==>
              var style := StyleName(e.tools.draw.value.style);
              var f := r.features[|e.features|];
              && Features.WellFormed(f)
              && Features.Get(f, "type") == Some(style)
              && Features.Get(f, "name") == Some(style + " " + DecimalString(now))
              && Features.Get(f, Features.GeometryKey) == Some(geometry)
    ensures r.tools == e.tools && r.fields == e.fields && r.active == e.active
  {
    var t := e.tools;
    if t.draw.Some? && DrawI(t.draw.value) in t.onMap then
      var style := StyleName(t.draw.value.style);
      var f := Features.Feature([(Features.GeometryKey, geometry), ("type", style), ("name", style + " " + DecimalString(now))]);
      assert Features.Keys(f) == [Features.GeometryKey, "type", "name"];
      e.(features := e.features + [f])
    else e
  }

  /** `onFeaturesChange`: the table's edited features replace the source's. */
  function OnFeaturesChange(e: Editor, updated: seq<Features.Feature>): (r: Editor)
    ensures r.features == updated
    ensures r.fields == e.fields && r.tools == e.tools && r.active == e.active
  {
    e.(features := updated)
  }

  /** `onFieldsChange`: the table's columns replace the component's. */
  function OnFieldsChange(e: Editor, updated: seq<string>): (r: Editor)
    ensures r.fields == updated
    ensures r.features == e.features && r.tools == e.tools && r.active == e.active
  {
    e.(fields := updated)
  }

  /** `saveVectorLayer`: nothing to save means no upload; otherwise the
      features are uploaded as "layer_<now>" and, whatever the upload's
      fate, the button ends enabled with the floppy label. */
  function SaveVectorLayer(e: Editor, svc: GeoServer.Service, srv: GeoServer.Server, now: nat)
    : (r: (Editor, GeoServer.Service, Option<GeoServer.Run<()>>))
    ensures |e.features| == 0 ==> r == (e, svc, None)
    ensures |e.features| > 0 ==>
              && r.0 == e.(saveDisabled := false, saveLabel := SavedLabel)
              && r.2.Some?
              && (r.1, r.2.value) == GeoServer.UploadGeoJson(svc, e.features, "layer_" + DecimalString(now), srv)
              && (Truthy(srv.token) ==>
                    |r.2.value.trace| == 1 && r.2.value.trace[0].body == GeoServer.ShapefileZip(e.features))
  {
    if |e.features| == 0 then (e, svc, None)
    else
      var (svc', run) := GeoServer.UploadGeoJson(svc, e.features, "layer_" + DecimalString(now), srv);
      (e.(saveDisabled := false, saveLabel := SavedLabel), svc', Some(run))
  }

  // ---------------------------------------------------------------------
  // The handlers as one transition relation

  datatype Action =
    | ToggleTableA
    | ToggleCreatingVectorA
    | EditDrawingA
    | DrawVectorLayerA(style: DrawStyle)
    | DrawEnd(geometry: string, now: nat)
    | FeaturesChanged(features: seq<Features.Feature>)
    | FieldsChanged(fields: seq<string>)

  function Step(e: Editor, a: Action): Editor
  {
    match a
    case ToggleTableA => ToggleTable(e)
    case ToggleCreatingVectorA => ToggleCreatingVector(e)
    case EditDrawingA => EditDrawing(e)
    case DrawVectorLayerA(style) => DrawVectorLayer(e, style)
    case DrawEnd(geometry, now) => FinishSketch(e, geometry, now)
    case FeaturesChanged(fs) => OnFeaturesChange(e, fs)
    case FieldsChanged(fs) => OnFieldsChange(e, fs)
  }

  function Run(e: Editor, actions: seq<Action>): Editor
    decreases |actions|
  {
    if |actions| == 0 then e else Run(Step(e, actions[0]), actions[1..])
  }

  lemma ToggleCreatingVectorConsistent(e: Editor)
    requires Consistent(e)
    ensures Consistent(ToggleCreatingVector(e))
  {
    if e.isCreatingVector {
      TakeOffAllClears(e.tools);
    }
  }

  lemma EditDrawingConsistent(e: Editor)
    requires Consistent(e)
    ensures Consistent(EditDrawing(e))
  {
    if EditButton in e.active {
      TakeOffModifyConsistent(e.tools);
    } else if e.tools.draw.Some? {
      AddModifyConsistent(e.tools);
    }
  }

  lemma DrawVectorLayerConsistent(e: Editor, style: DrawStyle)
    requires Consistent(e)
    ensures Consistent(DrawVectorLayer(e, style))
  {
    var r := DrawVectorLayer(e, style);
    var off := TakeOffDrawAndSnap(e.tools);
    TakeOffDrawAndSnapConsistent(e.tools);
    assert (EditButton in r.active) == (EditButton in e.active) by {
      assert EditButton != DrawButton(style);
    }
    if DrawButton(style) in e.active {
      assert r.tools == off;
    } else {
      var t := AddDrawAndSnap(off, style);
      assert r.tools == t;
      AddDrawAndSnapConsistent(off, style);
      assert NoModify(off.onMap) ==> NoModify(t.onMap);
    }
  }

  /** Every handler keeps the map holding only the current interactions,
      each once, and a Modify only while editing: no stale Draw, Snap or
      Modify stays behind. */
  lemma StepPreservesConsistent(e: Editor, a: Action)
    requires Consistent(e)
    ensures Consistent(Step(e, a))
  {
    match a
    case ToggleCreatingVectorA => ToggleCreatingVectorConsistent(e);
    case EditDrawingA => EditDrawingConsistent(e);
    case DrawVectorLayerA(style) => DrawVectorLayerConsistent(e, style);
    case _ =>
  }

  /** From the initial state, any sequence of handler calls keeps the map
      consistent. */
  lemma {:induction false} RunPreservesConsistent(e: Editor, actions: seq<Action>)
    requires Consistent(e)
    ensures Consistent(Run(e, actions))
    decreases |actions|
  {
    if |actions| > 0 {
      StepPreservesConsistent(e, actions[0]);
      RunPreservesConsistent(Step(e, actions[0]), actions[1..]);
    }
  }

  lemma ReachableConsistent(actions: seq<Action>)
    ensures Consistent(Run(Initial, actions))
  {
    RunPreservesConsistent(Initial, actions);
  }
}

=== FILE: features.dfy ===
/** Vector features as the attribute table sees them, and the table's edits
    (src/app/layer-features-table/layer-features-table.component.ts). */
module Features {
  import opened Js
  import Seqs

  /** One property of a feature: key and value. */
  type Prop = (string, string)

  /** An OpenLayers feature's properties in the order `getProperties()`
      lists them (insertion order). The geometry is itself the property
      "geometry"; its value is abstracted to a string. */
  datatype Feature = Feature(props: seq<Prop>)

  const GeometryKey := "geometry"

  function KeysOf(ps: seq<Prop>): (ks: seq<string>)
    ensures |ks| == |ps|
    ensures forall i :: 0 <= i < |ps| ==> ks[i] == ps[i].0
  {
    if |ps| == 0 then [] else [ps[0].0] + KeysOf(ps[1..])
  }

  /** `Object.keys(feature.getProperties())`. */
  function Keys(f: Feature): seq<string>
  {
    KeysOf(f.props)
  }

  /** Property keys are distinct, as in a JavaScript object. */
  predicate WellFormed(f: Feature)
  {
    Seqs.NoDup(Keys(f))
  }

  function Lookup(ps: seq<Prop>, key: string): (v: Option<string>)
    ensures v.None? <==> key !in KeysOf(ps)
    ensures v.Some? ==> (key, v.value) in ps
  {
    if |ps| == 0 then None
    else if ps[0].0 == key then Some(ps[0].1)
    else Lookup(ps[1..], key)
  }

  /** `feature.get(key)`, or null when the feature has no such property. */
  function Get(f: Feature, key: string): Option<string>
  {
    Lookup(f.props, key)
  }

  /** Assigning a property: an existing key keeps its position and takes the
      new value; a new key is appended. */
  function Assign(ps: seq<Prop>, key: string, value: string): seq<Prop>
  {
    if |ps| == 0 then [(key, value)]
    else if ps[0].0 == key then [(key, value)] + ps[1..]
    else [ps[0]] + Assign(ps[1..], key, value)
  }

  /** After an assignment the key reads back the new value, every other key
      reads as before, and the key order is kept (a new key goes last). */
  lemma AssignSpec(ps: seq<Prop>, key: string, value: string)
    ensures Lookup(Assign(ps, key, value), key) == Some(value)
    ensures forall k :: k != key ==> Lookup(Assign(ps, key, value), k) == Lookup(ps, k)
    ensures KeysOf(Assign(ps, key, value)) == if key in KeysOf(ps) then KeysOf(ps) else KeysOf(ps) + [key]
  {
    AssignReads(ps, key, value);
    forall k | k != key
      ensures Lookup(Assign(ps, key, value), k) == Lookup(ps, k)
    {
      AssignKeeps(ps, key, value, k);
    }
    AssignKeys(ps, key, value);
  }

  lemma {:induction false} AssignReads(ps: seq<Prop>, key: string, value: string)
    ensures Lookup(Assign(ps, key, value), key) == Some(value)
  {
    if |ps| > 0 && ps[0].0 != key {
      AssignReads(ps[1..], key, value);
      assert Assign(ps, key, value)[1..] == Assign(ps[1..], key, value);
    }
  }

  lemma {:induction false} AssignKeeps(ps: seq<Prop>, key: string, value: string, k: string)
    requires k != key
    ensures Lookup(Assign(ps, key, value), k) == Lookup(ps, k)
  {
    var r := Assign(ps, key, value);
    if |ps| == 0 {
      assert r == [(key, value)] && r[1..] == [];
    } else if ps[0].0 == key {
      assert r[0] == (key, value) && r[1..] == ps[1..];
    } else {
      AssignKeeps(ps[1..], key, value, k);
      assert r[0] == ps[0] && r[1..] == Assign(ps[1..], key, value);
    }
  }

  lemma {:induction false} AssignKeys(ps: seq<Prop>, key: string, value: string)
    ensures KeysOf(Assign(ps, key, value)) == if key in KeysOf(ps) then KeysOf(ps) else KeysOf(ps) + [key]
  {
    var r := Assign(ps, key, value);
    if |ps| == 0 {
      assert KeysOf(r) == [key];
    } else if ps[0].0 == key {
      assert r[0] == (key, value) && r[1..] == ps[1..];
      assert KeysOf(r) == [key] + KeysOf(ps[1..]);
      assert KeysOf(ps) == [key] + KeysOf(ps[1..]);
    } else {
      var rest := Assign(ps[1..], key, value);
      AssignKeys(ps[1..], key, value);
      assert r[0] == ps[0] && r[1..] == rest;
      assert KeysOf(r) == [ps[0].0] + KeysOf(rest);
      assert KeysOf(ps) == [ps[0].0] + KeysOf(ps[1..]);
      assert key in KeysOf(ps) <==> key in KeysOf(ps[1..]);
    }
  }

  /** `feature.set(key, value)`. */
  function Set(f: Feature, key: string, value: string): (r: Feature)
    ensures Get(r, key) == Some(value)
    ensures forall k :: k != key ==> Get(r, k) == Get(f, k)
    ensures Keys(r) == if key in Keys(f) then Keys(f) else Keys(f) + [key]
    ensures WellFormed(f) ==> WellFormed(r)
  {
    AssignSpec(f.props, key, value);
    var r := Feature(Assign(f.props, key, value));
    assert key !in Keys(f) && WellFormed(f) ==> Seqs.NoDup(Keys(f) + [key]);
    r
  }

  /** `extractFields`: the table's column names, taken from the first
      feature's property keys without the geometry; none for no features. */
  function ExtractFields(features: seq<Feature>): (fields: seq<string>)
    ensures |features| == 0 ==> fields == []
    ensures GeometryKey !in fields
    ensures |features| > 0 ==> Seqs.Subsequence(fields, Keys(features[0]))
    ensures |features| > 0 ==>
              forall k :: k in Keys(features[0]) && k != GeometryKey ==> k in fields
    ensures |features| > 0 ==> forall k :: k in fields ==> k in Keys(features[0])
  {
    if |features| == 0 then []
    else
      var keys := Keys(features[0]);
      var notGeometry := k => k != GeometryKey;
      Seqs.FilterSpec(keys, notGeometry);
      Seqs.Filter(keys, notGeometry)
  }

  /** The attribute table's inputs: its rows (features) and column names. */
  datatype Table = Table(features: seq<Feature>, fields: seq<string>)

  /** `updateValue`: the edited cell takes the typed text; every other cell
      and every other row keeps its value. */
  function UpdateValue(t: Table, row: nat, field: string, value: string): (r: Table)
    requires row < |t.features|
    ensures r.fields == t.fields
    ensures |r.features| == |t.features|
    ensures Get(r.features[row], field) == Some(value)
    ensures forall k :: k != field ==> Get(r.features[row], k) == Get(t.features[row], k)
    ensures forall i :: 0 <= i < |t.features| && i != row ==> r.features[i] == t.features[i]
  {
    t.(features := t.features[row := Set(t.features[row], field, value)])
  }

  /** Where `splice(index, 1)` starts: a negative index counts from the end. */
  function SpliceStart(index: int, len: nat): (start: nat)
    ensures start <= len
  {
    if index < 0 then (if len + index < 0 then 0 else len + index)
    else if index > len then len
    else index
  }

  /** `deleteRow`: `features.splice(index, 1)`. */
  function DeleteRow(t: Table, index: int): (r: Table)
    ensures r.fields == t.fields
    ensures 0 <= index < |t.features| ==>
              r.features == t.features[..index] + t.features[index + 1..]
    ensures -|t.features| <= index < 0 ==>
              var k := |t.features| + index;
              r.features == t.features[..k] + t.features[k + 1..]
    ensures index >= |t.features| ==> r == t
    ensures index < -|t.features| && |t.features| > 0 ==> r.features == t.features[1..]
  {
    var start := SpliceStart(index, |t.features|);
    if start < |t.features| then
      t.(features := t.features[..start] + t.features[start + 1..])
    else t
  }

  /** Deleting a row removes exactly that one feature. */
  lemma DeleteRowRemovesOne(t: Table, index: nat)
    requires index < |t.features|
    ensures multiset(DeleteRow(t, index).features) + multiset{t.features[index]}
            == multiset(t.features)
    ensures |DeleteRow(t, index).features| == |t.features| - 1
  {
    var fs := t.features;
    assert fs == fs[..index] + [fs[index]] + fs[index + 1..];
  }

  /** `addField` with the text `prompt` returned (null when cancelled). */
  function AddField(t: Table, newField: Option<string>): (r: Table)
    ensures !Truthy(newField) || newField.value in t.fields ==> r == t
    ensures Truthy(newField) && newField.value !in t.fields ==>
              && r.fields == t.fields + [newField.value]
              && |r.features| == |t.features|
              && forall i :: 0 <= i < |t.features| ==>
                   && Get(r.features[i], newField.value) == Some("")
                   && forall k :: k != newField.value ==> Get(r.features[i], k) == Get(t.features[i], k)
  {
    if Truthy(newField) && newField.value !in t.fields then
      var name := newField.value;
      Table(seq(|t.features|, i requires 0 <= i < |t.features| => Set(t.features[i], name, "")),
            t.fields + [name])
    else t
  }

  /** Adding a field keeps the column names distinct, and adding the same
      name again changes nothing. */
  lemma AddFieldDistinctAndIdempotent(t: Table, newField: Option<string>)
    requires Seqs.NoDup(t.fields)
    ensures Seqs.NoDup(AddField(t, newField).fields)
    ensures AddField(AddField(t, newField), newField) == AddField(t, newField)
  {
    if Truthy(newField) && newField.value !in t.fields {
      var fs := AddField(t, newField).fields;
      assert fs == t.fields + [newField.value];
      assert fs[|fs| - 1] in fs;
    }
  }
}

=== FILE: geoserver.dfy ===
/** The layer-publication workflow of `UploadService`
    (src/app/upload.service.ts): existence checks, workspace and store
    creation, and file uploads against GeoServer's REST API.

    Every server interaction is abstract. A `Server` value says what the
    server answers to each kind of request in one run, and each workflow is a
    pure function from those answers to the ordered trace of requests it
    issues plus its result or the exception it throws. Requests that the
    source fires without awaiting appear in the trace, but nothing reads
    their answers. */
module GeoServer {
  import opened Js
  import Features

  const RestBase := "http://localhost:8080/geoserver/rest/workspaces"
  /** The workspace every user with the provider role publishes into. */
  const SharedWorkspace := "geoportal"
  const ProviderRole := "provider"
  /** The workspace `uploadGeoJson` falls back to when none is set. */
  const FallbackWorkspace := "d.d.danilova2001"
  /** The fixed datastore `uploadGeoJson` uploads into. */
  const VectorStore := "myvectorstore"

  // ---------------------------------------------------------------------
  // Service state

  /** The service's one piece of mutable state; it starts as "". */
  datatype Service = Service(workspaceName: Option<string>)

  const Fresh: Service := Service(Some(""))

  /** The workspace name as it appears in URLs and XML bodies. */
  function Workspace(svc: Service): string
  {
    Show(svc.workspaceName)
  }

  /** `setWorkspaceName`: providers share one workspace; everyone else gets
      a workspace named after their nickname, which may be null. */
  function SetWorkspaceName(svc: Service, roles: seq<string>, nickname: Option<string>): (r: Service)
    ensures ProviderRole in roles ==> r.workspaceName == Some(SharedWorkspace)
    ensures ProviderRole !in roles ==> r.workspaceName == nickname
  {
    if ProviderRole in roles then Service(Some(SharedWorkspace)) else Service(nickname)
  }

  /** The role switch separates users: all providers share one workspace,
      while two other users with different nicknames upload into different
      datastores. A null nickname is rendered "null", so it shares the
      workspace of a user whose nickname is "null". */
  lemma WorkspaceIsolation(svc: Service, roles: seq<string>, nick: Option<string>,
                           roles': seq<string>, nick': Option<string>, store: string)
    ensures ProviderRole in roles && ProviderRole in roles' ==>
              Workspace(SetWorkspaceName(svc, roles, nick)) == Workspace(SetWorkspaceName(svc, roles', nick'))
    ensures ProviderRole !in roles && ProviderRole !in roles' && nick.Some? && nick'.Some? && nick != nick' ==>
              DataStoreUrl(Workspace(SetWorkspaceName(svc, roles, nick)), store)
              != DataStoreUrl(Workspace(SetWorkspaceName(svc, roles', nick')), store)
    ensures ProviderRole !in roles ==>
              Workspace(SetWorkspaceName(svc, roles, None)) == Workspace(SetWorkspaceName(svc, roles, Some("null")))
  {
    if ProviderRole !in roles && ProviderRole !in roles' && nick.Some? && nick'.Some? && nick != nick' {
      var ws := Workspace(SetWorkspaceName(svc, roles, nick));
      var ws' := Workspace(SetWorkspaceName(svc, roles', nick'));
      assert ws == nick.value && ws' == nick'.value;
      if DataStoreUrl(ws, store) == DataStoreUrl(ws', store) {
        assert DataStoreUrl(ws, store) == (RestBase + "/") + ws + ("/datastores/" + store);
        assert DataStoreUrl(ws', store) == (RestBase + "/") + ws' + ("/datastores/" + store);
        AppendCancel(RestBase + "/", ws, ws', "/datastores/" + store);
      }
    }
  }

  /** A middle part is determined by the text around it. */
  lemma AppendCancel(p: string, a: string, b: string, s: string)
    requires p + a + s == p + b + s
    ensures a == b
  {
    var x := p + a + s;
    assert |a| == |b|;
    assert a == x[|p|..|p| + |a|];
    assert b == (p + b + s)[|p|..|p| + |b|];
  }

  // ---------------------------------------------------------------------
  // Requests

  datatype Method = Get | Post | Put | Delete

  /** An XML request body: a root element holding text-only child elements,
      in document order. */
  datatype XmlDoc = XmlDoc(root: string, fields: seq<(string, string)>)

  /** The text of the first child element with the given tag. */
  function XmlField(doc: XmlDoc, tag: string): Option<string>
  {
    FirstWithKey(doc.fields, tag)
  }

  function FirstWithKey(fields: seq<(string, string)>, key: string): Option<string>
  {
    if |fields| == 0 then None
    else if fields[0].0 == key then Some(fields[0].1)
    else FirstWithKey(fields[1..], key)
  }

  /** The first field with the key is found at its position. */
  lemma {:induction false} FirstWithKeyAt(fields: seq<(string, string)>, i: nat, key: string)
    requires i < |fields| && fields[i].0 == key
    requires forall j :: 0 <= j < i ==> fields[j].0 != key
    ensures FirstWithKey(fields, key) == Some(fields[i].1)
  {
    if i > 0 {
      FirstWithKeyAt(fields[1..], i - 1, key);
    }
  }

  datatype Body =
    | NoBody
    | Xml(doc: XmlDoc)
      /** One form entry sent as the raw body (`formData.get('file')`). */
    | Upload(content: Option<FormValue>)
      /** A whole `FormData` sent as a multipart body. */
    | Multipart(form: FormData)
      /** The zipped shapefile built from these features. */
    | ShapefileZip(features: seq<Features.Feature>)

  /** One HTTP request: method, URL, Authorization header and body. */
  datatype Request = Request(verb: Method, url: string, authorization: string, body: Body)

  function Bearer(token: string): string
  {
    "Bearer " + token
  }

  function WorkspaceUrl(ws: string): string
  {
    RestBase + "/" + ws
  }

  function CoverageStoresUrl(ws: string): string
  {
    WorkspaceUrl(ws) + "/coveragestores"
  }

  function CoverageStoreProbeUrl(ws: string, store: string): string
  {
    CoverageStoresUrl(ws) + "/" + store + ".json"
  }

  function GeoTiffUrl(ws: string, store: string): string
  {
    CoverageStoresUrl(ws) + "/" + store + "/file.geotiff"
  }

  function DataStoreUrl(ws: string, store: string): string
  {
    WorkspaceUrl(ws) + "/datastores/" + store
  }

  function ShapefileUrl(ws: string, store: string): string
  {
    DataStoreUrl(ws, store) + "/file.shp"
  }

  /** The shapefile upload that stores the file without publishing a layer. */
  function UnpublishedShapefileUrl(ws: string, store: string): string
  {
    ShapefileUrl(ws, store) + "?configure=none"
  }

  function FeatureTypesUrl(ws: string, store: string): string
  {
    DataStoreUrl(ws, store) + "/featuretypes"
  }

  /** The vector delete URL carries a slash before its query; the raster one does not. */
  function DataStoreDeleteUrl(ws: string, store: string): string
  {
    DataStoreUrl(ws, store) + "/?recurse=true"
  }

  function CoverageStoreDeleteUrl(ws: string, store: string): string
  {
    CoverageStoresUrl(ws) + "/" + store + "?recurse=true"
  }

  function ListWorkspacesRequest(token: string): Request
  {
    Request(Get, RestBase, Bearer(token), NoBody)
  }

  function CreateWorkspaceRequest(svc: Service, token: string): Request
  {
    Request(Post, RestBase, Bearer(token), Xml(XmlDoc("workspace", [("name", Workspace(svc))])))
  }

  function CoverageStoreXml(svc: Service, layerName: string): XmlDoc
  {
    XmlDoc("coverageStore",
           [("name", layerName), ("type", "GeoTIFF"), ("enabled", "true"),
            ("workspace", Workspace(svc)), ("url", "file:data/raster.tif")])
  }

  function FeatureTypeXml(layerName: string, nativeName: string): XmlDoc
  {
    XmlDoc("featureType", [("name", layerName), ("nativeName", nativeName), ("title", layerName)])
  }

  // ---------------------------------------------------------------------
  // Server answers, failures and runs

  /** The answer to `GET /workspaces`: the workspace names, or a failure
      (an HTTP error or a body without a workspace list). */
  datatype Listing = Listed(names: seq<string>) | ListingFailed

  /** The answer to one request: a response with a status, a promise that
      resolves with no response, or an HTTP error with a status. */
  datatype Reply = Answered(status: int) | Silent | Rejected(status: int)

  /** What the credential provider and the server answer in one run, one
      field per kind of request. */
  datatype Server = Server(
    token: Option<string>,
    workspaces: Listing,
    workspaceCreate: Reply,
    coverageStore: Reply,
    storeCreate: Reply,
    tiffUpload: Reply,
    dataStore: Reply,
    shapefileUpload: Reply,
    featureTypePublish: Reply,
    geoJsonUpload: Reply)

  /** The exceptions the workflows throw. */
  datatype Failure =
    | NoToken
      /** The form's `file` entry is not a file, so reading its name fails. */
    | NoFileName
    | WorkspaceListingFailed
    | DataStoreCheckFailed(status: int)
    | RequestFailed(status: int)
    | StoreCreationFailed

  datatype Outcome<+T> = Returned(value: T) | Thrown(failure: Failure)

  /** The requests a workflow issued, in order, and how it ended. */
  datatype Run<+T> = Run(trace: seq<Request>, outcome: Outcome<T>)

  /** Some request in the trace has this method and URL. */
  predicate Issued(trace: seq<Request>, m: Method, url: string)
  {
    exists r :: r in trace && r.verb == m && r.url == url
  }

  // ---------------------------------------------------------------------
  // The steps

  /** The workspace name is among the listed names; a null name never is. */
  predicate WorkspaceListed(svc: Service, names: seq<string>)
  {
    svc.workspaceName.Some? && svc.workspaceName.value in names
  }

  /** `checkWorkspace`: lists the workspaces and reports whether the
      service's workspace is among them; a failed listing is rethrown. */
  function CheckWorkspace(svc: Service, token: string, listing: Listing): (run: Run<bool>)
    ensures run.trace == [ListWorkspacesRequest(token)]
    ensures run.outcome.Thrown? <==> listing.ListingFailed?
    ensures run.outcome.Thrown? ==> run.outcome.failure == WorkspaceListingFailed
    ensures run.outcome == Returned(true) <==> listing.Listed? && WorkspaceListed(svc, listing.names)
  {
    var trace := [ListWorkspacesRequest(token)];
    match listing
    case Listed(names) => Run(trace, Returned(svc.workspaceName.Some? && svc.workspaceName.value in names))
    case ListingFailed => Run(trace, Thrown(WorkspaceListingFailed))
  }

  /** The opening of both layer uploads: check the workspace and, when it
      is not listed, fire its creation without reading the answer. A failed
      listing is rethrown. */
  function EnsureWorkspace(svc: Service, token: string, listing: Listing): (run: Run<()>)
    ensures |run.trace| == if listing.Listed? && !WorkspaceListed(svc, listing.names) then 2 else 1
    ensures run.trace[0] == ListWorkspacesRequest(token)
    ensures |run.trace| == 2 ==> run.trace[1] == CreateWorkspaceRequest(svc, token)
    ensures run.outcome.Thrown? <==> listing.ListingFailed?
    ensures run.outcome.Thrown? ==> run.outcome.failure == WorkspaceListingFailed
  {
    var check := CheckWorkspace(svc, token, listing);
    if check.outcome.Thrown? then Run(check.trace, Thrown(check.outcome.failure))
    else if check.outcome.value then Run(check.trace, Returned(()))
    else Run(check.trace + [CreateWorkspaceRequest(svc, token)], Returned(()))
  }

  /** Every request of the opening goes to the workspace collection, and the
      creation is among them exactly when the listing lacks the workspace. */
  lemma EnsureWorkspaceRequests(svc: Service, token: string, listing: Listing)
    ensures var t := EnsureWorkspace(svc, token, listing).trace;
            forall r :: r in t ==> r.url == RestBase
    ensures Issued(EnsureWorkspace(svc, token, listing).trace, Post, RestBase) <==>
              listing.Listed? && !WorkspaceListed(svc, listing.names)
  {
    var t := EnsureWorkspace(svc, token, listing).trace;
    assert t[0].verb == Get;
    assert |t| == 2 ==> t[1].verb == Post && t[1] in t;
  }

  /** `checkCoverageStoreExists`: only a 404 means the store is absent; a
      success or any other error counts as present, so nothing is overwritten. */
  function CheckCoverageStoreExists(svc: Service, store: string, token: string, reply: Reply): (run: Run<bool>)
    ensures run.trace == [Request(Get, CoverageStoreProbeUrl(Workspace(svc), store), Bearer(token), NoBody)]
    ensures run.outcome.Returned?
    ensures !run.outcome.value <==> reply == Rejected(404)
  {
    var trace := [Request(Get, CoverageStoreProbeUrl(Workspace(svc), store), Bearer(token), NoBody)];
    match reply
    case Rejected(status) => Run(trace, Returned(status != 404))
    case _ => Run(trace, Returned(true))
  }

  /** `createCoverageStore`: posts a GeoTIFF store named after the layer and
      reports success without waiting for the server's answer. */
  function CreateCoverageStore(svc: Service, layerName: string, token: string): (run: Run<bool>)
    ensures |run.trace| == 1
    ensures run.trace[0].verb == Post && run.trace[0].url == CoverageStoresUrl(Workspace(svc))
    ensures run.trace[0].body.Xml?
    ensures XmlField(run.trace[0].body.doc, "name") == Some(layerName)
    ensures XmlField(run.trace[0].body.doc, "type") == Some("GeoTIFF")
    ensures XmlField(run.trace[0].body.doc, "workspace") == Some(Workspace(svc))
    ensures run.outcome == Returned(true)
  {
    var doc := CoverageStoreXml(svc, layerName);
    FirstWithKeyAt(doc.fields, 1, "type");
    FirstWithKeyAt(doc.fields, 3, "workspace");
    Run([Request(Post, CoverageStoresUrl(Workspace(svc)), Bearer(token), Xml(doc))], Returned(true))
  }

  /** `uploadTiff`: puts the form's file into the store and reports success
      without waiting for the server's answer. */
  function UploadTiff(svc: Service, form: FormData, layerName: string, token: string): (run: Run<bool>)
    ensures |run.trace| == 1
    ensures run.trace[0].verb == Put && run.trace[0].url == GeoTiffUrl(Workspace(svc), layerName)
    ensures run.trace[0].body == Upload(FormGet(form, "file"))
    ensures run.outcome == Returned(true)
  {
    Run([Request(Put, GeoTiffUrl(Workspace(svc), layerName), Bearer(token), Upload(FormGet(form, "file")))],
        Returned(true))
  }

  /** The datastore answer `checkDataStore` reads as "absent". */
  predicate DataStoreAbsent(reply: Reply)
  {
    reply.Silent? || reply == Rejected(404) || (reply.Answered? && reply.status != 200)
  }

  /** `checkDataStore`: present exactly when a response with status 200
      arrives; absent on no response, another status or a 404; every other
      error is rethrown. */
  function CheckDataStore(svc: Service, token: string, store: string, reply: Reply): (run: Run<bool>)
    ensures run.trace == [Request(Get, DataStoreUrl(Workspace(svc), store), Bearer(token), NoBody)]
    ensures run.outcome == Returned(true) <==> reply == Answered(200)
    ensures run.outcome == Returned(false) <==> DataStoreAbsent(reply)
    ensures run.outcome.Thrown? <==> reply.Rejected? && reply.status != 404
    ensures run.outcome.Thrown? ==> run.outcome.failure == DataStoreCheckFailed(reply.status)
  {
    var trace := [Request(Get, DataStoreUrl(Workspace(svc), store), Bearer(token), NoBody)];
    match reply
    case Answered(status) => Run(trace, Returned(status == 200))
    case Silent => Run(trace, Returned(false))
    case Rejected(status) =>
      if status == 404 then Run(trace, Returned(false))
      else Run(trace, Thrown(DataStoreCheckFailed(status)))
  }

  // ---------------------------------------------------------------------
  // uploadRasterLayer

  /** The answers under which a raster upload gets past the token check and
      the workspace listing. */
  predicate RasterReachesStoreCheck(srv: Server)
  {
    Truthy(srv.token) && srv.workspaces.Listed?
  }

  /** `uploadRasterLayer`: token, workspace check (creating the workspace when
      absent), collision check on the coverage store, then store creation and
      GeoTIFF upload. */
  function UploadRasterLayer(svc: Service, form: FormData, layerName: string, srv: Server): (run: Run<bool>)
    // no usable token: throws before any request
    ensures !Truthy(srv.token) ==> run == Run([], Thrown(NoToken))
    ensures Truthy(srv.token) ==> |run.trace| >= 1 && run.trace[0] == ListWorkspacesRequest(srv.token.value)
    ensures run.outcome == Thrown(WorkspaceListingFailed) <==> Truthy(srv.token) && srv.workspaces.ListingFailed?
    ensures run.outcome.Thrown? ==> run.outcome.failure in {NoToken, WorkspaceListingFailed}
    // the workspace is created exactly when the listing lacks it
    ensures Issued(run.trace, Post, RestBase) <==>
              RasterReachesStoreCheck(srv) && !WorkspaceListed(svc, srv.workspaces.names)
    // collision guard: an existing (or indeterminate) store aborts with false
    ensures run.outcome == Returned(false) <==>
              RasterReachesStoreCheck(srv) && srv.coverageStore != Rejected(404)
    ensures run.outcome == Returned(false) ==>
              && !Issued(run.trace, Post, CoverageStoresUrl(Workspace(svc)))
              && !Issued(run.trace, Put, GeoTiffUrl(Workspace(svc), layerName))
    // past the guard: store creation then upload, and success
    ensures run.outcome == Returned(true) <==>
              RasterReachesStoreCheck(srv) && srv.coverageStore == Rejected(404)
    ensures run.outcome == Returned(true) ==>
              var n := |run.trace|;
              && n >= 3
              && run.trace[n - 2].verb == Post
              && run.trace[n - 2].url == CoverageStoresUrl(Workspace(svc))
              && run.trace[n - 2].body == Xml(CoverageStoreXml(svc, layerName))
              && run.trace[n - 1].verb == Put
              && run.trace[n - 1].url == GeoTiffUrl(Workspace(svc), layerName)
              && run.trace[n - 1].body == Upload(FormGet(form, "file"))
  {
    if !Truthy(srv.token) then Run([], Thrown(NoToken))
    else
      var token := srv.token.value;
      var opening := EnsureWorkspace(svc, token, srv.workspaces);
      EnsureWorkspaceRequests(svc, token, srv.workspaces);
      if opening.outcome.Thrown? then Run(opening.trace, Thrown(opening.outcome.failure))
      else
        var ensured := opening.trace;
        var probe := CheckCoverageStoreExists(svc, layerName, token, srv.coverageStore);
        var checked := ensured + probe.trace;
        ProbeIsNotCreation(svc, layerName, token);
        if probe.outcome.value then
          Run(checked, Returned(false))
        else
          var store := CreateCoverageStore(svc, layerName, token);
          if !store.outcome.value then Run(checked + store.trace, Thrown(StoreCreationFailed))
          else
            var tiff := UploadTiff(svc, form, layerName, token);
            Run(checked + store.trace + tiff.trace, Returned(tiff.outcome.value))
  }

  /** The URLs of the raster workflow's requests are pairwise distinct where
      their methods agree. */
  lemma ProbeIsNotCreation(svc: Service, layerName: string, token: string)
    ensures CoverageStoresUrl(Workspace(svc)) != RestBase
    ensures CoverageStoreProbeUrl(Workspace(svc), layerName) != RestBase
  {
    assert |CoverageStoresUrl(Workspace(svc))| > |RestBase|;
    assert |CoverageStoreProbeUrl(Workspace(svc), layerName)| > |RestBase|;
  }

  /** Answers to requests the raster workflow does not await — workspace
      creation, store creation, the GeoTIFF upload — never change its trace
      or its result. */
  lemma RasterIgnoresUnawaitedReplies(svc: Service, form: FormData, layerName: string, a: Server, b: Server)
    requires a.token == b.token && a.workspaces == b.workspaces && a.coverageStore == b.coverageStore
    ensures UploadRasterLayer(svc, form, layerName, a) == UploadRasterLayer(svc, form, layerName, b)
  {
  }

  /** Nothing is created before its existence was checked: the workspace
      POST follows the workspace listing, and the store POST and the GeoTIFF
      PUT follow the probe of that very store. */
  lemma RasterChecksBeforeCreating(svc: Service, form: FormData, layerName: string, srv: Server)
    ensures var t := UploadRasterLayer(svc, form, layerName, srv).trace;
            forall i :: 0 <= i < |t| && t[i].verb == Post && t[i].url == RestBase ==>
              exists j :: 0 <= j < i && t[j].verb == Get && t[j].url == RestBase
    ensures var t := UploadRasterLayer(svc, form, layerName, srv).trace;
            var ws := Workspace(svc);
            forall i :: 0 <= i < |t| && t[i].verb in {Post, Put} && t[i].url != RestBase ==>
              exists j :: 0 <= j < i && t[j].verb == Get && t[j].url == CoverageStoreProbeUrl(ws, layerName)
  {
    var run := UploadRasterLayer(svc, form, layerName, srv);
    var t := run.trace;
    if RasterReachesStoreCheck(srv) {
      var token := srv.token.value;
      var created := !WorkspaceListed(svc, srv.workspaces.names);
      // the trace is: listing, optional workspace creation, probe, then
      // (past the guard) store creation and upload
      var p := if created then 2 else 1;
      assert t[0].verb == Get && t[0].url == RestBase;
      assert t[p].verb == Get && t[p].url == CoverageStoreProbeUrl(Workspace(svc), layerName);
      assert forall i :: p < i < |t| ==> t[i].url != RestBase by {
        ProbeIsNotCreation(svc, layerName, token);
        assert |GeoTiffUrl(Workspace(svc), layerName)| > |RestBase|;
      }
    }
  }

  /** The only upload of the raster workflow is the GeoTIFF PUT into the
      store named after the layer. */
  lemma RasterPutsOnlyTiff(svc: Service, form: FormData, layerName: string, srv: Server)
    ensures forall r :: r in UploadRasterLayer(svc, form, layerName, srv).trace && r.verb == Put ==>
              r.url == GeoTiffUrl(Workspace(svc), layerName)
  {
  }

  /** A GeoTIFF upload and a shapefile upload never share a URL. */
  lemma TiffAndShapefileUrlsDiffer(ws: string, store: string)
    ensures GeoTiffUrl(ws, store) != UnpublishedShapefileUrl(ws, store)
  {
    assert |GeoTiffUrl(ws, store)| < |UnpublishedShapefileUrl(ws, store)|;
  }

  // ---------------------------------------------------------------------
  // uploadVectorLayer

  /** The file name read from the form: only a file entry has one. */
  function FileNameOf(form: FormData): Option<string>
  {
    match FormGet(form, "file")
    case Some(FileValue(file)) => Some(file.name)
    case _ => None
  }

  /** The answers under which a vector upload gets to its shapefile PUT. */
  predicate VectorUploads(form: FormData, srv: Server)
  {
    FileNameOf(form).Some? && Truthy(srv.token) && srv.workspaces.Listed? && DataStoreAbsent(srv.dataStore)
  }

  /** `uploadVectorLayer`: name stripping, token, workspace check, datastore
      collision check, then an unpublished shapefile upload and an explicit
      feature-type publication named after the layer. */
  function UploadVectorLayer(svc: Service, form: FormData, layerName: string, srv: Server): (run: Run<()>)
    ensures FileNameOf(form).None? ==> run == Run([], Thrown(NoFileName))
    ensures FileNameOf(form).Some? && !Truthy(srv.token) ==> run == Run([], Thrown(NoToken))
    ensures FileNameOf(form).Some? && Truthy(srv.token) ==>
              |run.trace| >= 1 && run.trace[0] == ListWorkspacesRequest(srv.token.value)
    // the workspace is created exactly when the listing lacks it
    ensures Issued(run.trace, Post, RestBase) <==>
              FileNameOf(form).Some? && Truthy(srv.token) && srv.workspaces.Listed?
              && !WorkspaceListed(svc, srv.workspaces.names)
    // a failed listing aborts right after the listing request
    ensures FileNameOf(form).Some? && Truthy(srv.token) && srv.workspaces.ListingFailed? ==>
              run == Run([ListWorkspacesRequest(srv.token.value)], Thrown(WorkspaceListingFailed))
    // once the workspace is settled, the layer's datastore is probed
    ensures FileNameOf(form).Some? && Truthy(srv.token) && srv.workspaces.Listed? ==>
              Request(Get, DataStoreUrl(Workspace(svc), layerName), Bearer(srv.token.value), NoBody) in run.trace
    // a probe error other than 404 aborts with its status
    ensures FileNameOf(form).Some? && Truthy(srv.token) && srv.workspaces.Listed?
            && srv.dataStore.Rejected? && srv.dataStore.status != 404 ==>
              run.outcome == Thrown(DataStoreCheckFailed(srv.dataStore.status))
    // collision guard: an existing datastore ends the call quietly, before any upload
    ensures FileNameOf(form).Some? && Truthy(srv.token) && srv.workspaces.Listed? && srv.dataStore == Answered(200) ==>
              && run.outcome == Returned(())
              && !Issued(run.trace, Put, UnpublishedShapefileUrl(Workspace(svc), layerName))
              && !Issued(run.trace, Post, FeatureTypesUrl(Workspace(svc), layerName))
    // ... and the run is the workspace opening followed by the datastore probe
    ensures FileNameOf(form).Some? && Truthy(srv.token) && srv.workspaces.Listed? && srv.dataStore == Answered(200) ==>
              run.trace == EnsureWorkspace(svc, srv.token.value, srv.workspaces).trace
                           + [Request(Get, DataStoreUrl(Workspace(svc), layerName), Bearer(srv.token.value), NoBody)]
    ensures Issued(run.trace, Put, UnpublishedShapefileUrl(Workspace(svc), layerName)) <==> VectorUploads(form, srv)
    // past the checks, the awaited tail is the whole rest of the run
    ensures VectorUploads(form, srv) ==>
              var tail := StoreAndPublish(svc, form, layerName, StripExtension(FileNameOf(form).value), srv.token.value, srv);
              && |run.trace| >= 2 + |tail.trace|
              && run.trace[|run.trace| - |tail.trace|..] == tail.trace
              && run.outcome == tail.outcome
  {
    match FileNameOf(form)
    case None => Run([], Thrown(NoFileName))
    case Some(fileName) =>
      var nativeName := StripExtension(fileName);
      if !Truthy(srv.token) then Run([], Thrown(NoToken))
      else
        var token := srv.token.value;
        var opening := EnsureWorkspace(svc, token, srv.workspaces);
        EnsureWorkspaceRequests(svc, token, srv.workspaces);
        if opening.outcome.Thrown? then Run(opening.trace, Thrown(opening.outcome.failure))
        else
          var ensured := opening.trace;
          var probe := CheckDataStore(svc, token, layerName, srv.dataStore);
          var checked := ensured + probe.trace;
          VectorUrlsDiffer(Workspace(svc), layerName);
          if probe.outcome.Thrown? then Run(checked, Thrown(probe.outcome.failure))
          else if probe.outcome.value then Run(checked, Returned(()))
          else Run(checked + StoreAndPublish(svc, form, layerName, nativeName, token, srv).trace,
                   StoreAndPublish(svc, form, layerName, nativeName, token, srv).outcome)
  }

  /** The awaited tail of `uploadVectorLayer`: the shapefile goes up without
      being published, then the feature type is published under the layer's
      name and title with the file's base name as native name. A failed
      request aborts with its status. */
  function StoreAndPublish(svc: Service, form: FormData, layerName: string, nativeName: string,
                           token: string, srv: Server): (run: Run<()>)
    ensures |run.trace| == if srv.shapefileUpload.Rejected? then 1 else 2
    ensures run.trace[0] == Request(Put, UnpublishedShapefileUrl(Workspace(svc), layerName), Bearer(token), Multipart(form))
    ensures srv.shapefileUpload.Rejected? ==> run.outcome == Thrown(RequestFailed(srv.shapefileUpload.status))
    ensures !srv.shapefileUpload.Rejected? ==>
              && run.trace[1].verb == Post
              && run.trace[1].url == FeatureTypesUrl(Workspace(svc), layerName)
              && run.trace[1].body.Xml?
              && XmlField(run.trace[1].body.doc, "name") == Some(layerName)
              && XmlField(run.trace[1].body.doc, "title") == Some(layerName)
              && XmlField(run.trace[1].body.doc, "nativeName") == Some(nativeName)
              && (run.outcome == Returned(()) <==> !srv.featureTypePublish.Rejected?)
  {
    var put := Request(Put, UnpublishedShapefileUrl(Workspace(svc), layerName), Bearer(token), Multipart(form));
    if srv.shapefileUpload.Rejected? then
      Run([put], Thrown(RequestFailed(srv.shapefileUpload.status)))
    else
      var doc := FeatureTypeXml(layerName, nativeName);
      FirstWithKeyAt(doc.fields, 1, "nativeName");
      FirstWithKeyAt(doc.fields, 2, "title");
      var post := Request(Post, FeatureTypesUrl(Workspace(svc), layerName), Bearer(token), Xml(doc));
      var outcome := if srv.featureTypePublish.Rejected?
                     then Thrown(RequestFailed(srv.featureTypePublish.status))
                     else Returned(());
      Run([put, post], outcome)
  }

  /** Past the checks the vector workflow ends with the shapefile upload
      and, unless that was rejected, the publication with name and title
      the layer name and native name the file's base name. */
  lemma VectorUploadThenPublish(svc: Service, form: FormData, layerName: string, srv: Server)
    requires VectorUploads(form, srv)
    ensures var run := UploadVectorLayer(svc, form, layerName, srv);
              var t := run.trace;
              var n := |t|;
              var put := if srv.shapefileUpload.Rejected? then n - 1 else n - 2;
              && n >= 3 && 0 <= put
              && t[put].verb == Put && t[put].body == Multipart(form)
              && (srv.shapefileUpload.Rejected? ==> run.outcome == Thrown(RequestFailed(srv.shapefileUpload.status)))
              && (!srv.shapefileUpload.Rejected? ==>
                    && t[n - 1].verb == Post
                    && t[n - 1].url == FeatureTypesUrl(Workspace(svc), layerName)
                    && t[n - 1].body.Xml?
                    && XmlField(t[n - 1].body.doc, "name") == Some(layerName)
                    && XmlField(t[n - 1].body.doc, "title") == Some(layerName)
                    && XmlField(t[n - 1].body.doc, "nativeName") == Some(StripExtension(FileNameOf(form).value))
                    && (run.outcome == Returned(()) <==> !srv.featureTypePublish.Rejected?))
  {
    var run := UploadVectorLayer(svc, form, layerName, srv);
    var tail := StoreAndPublish(svc, form, layerName, StripExtension(FileNameOf(form).value), srv.token.value, srv);
    var n := |run.trace|;
    var m := |tail.trace|;
    assert run.trace[n - m..] == tail.trace;
    assert run.trace[n - m] == tail.trace[0];
    assert !srv.shapefileUpload.Rejected? ==> run.trace[n - 1] == tail.trace[1];
  }

  lemma VectorUrlsDiffer(ws: string, store: string)
    ensures FeatureTypesUrl(ws, store) != RestBase
    ensures UnpublishedShapefileUrl(ws, store) != RestBase
  {
    assert |FeatureTypesUrl(ws, store)| > |RestBase|;
    assert |UnpublishedShapefileUrl(ws, store)| > |RestBase|;
  }

  /** The feature type's native name is the uploaded file's name cut at its
      last '.', or "" when it has none: "a.b.zip" gives "a.b", "noext" gives "". */
  lemma NativeNameExamples()
    ensures StripExtension("a.b.zip") == "a.b"
    ensures StripExtension("noext") == ""
  {
    StripExtensionIsPrefix("a.b.zip");
    assert LastIndexOf("a.b.zip", '.') == 3;
    StripExtensionIsPrefix("noext");
  }

  /** The only upload of the vector workflow is the unpublished shapefile
      PUT into the datastore named after the layer. */
  lemma VectorPutsOnlyShapefile(svc: Service, form: FormData, layerName: string, srv: Server)
    ensures forall r :: r in UploadVectorLayer(svc, form, layerName, srv).trace && r.verb == Put ==>
              r.url == UnpublishedShapefileUrl(Workspace(svc), layerName)
  {
  }

  // ---------------------------------------------------------------------
  // uploadGeoJson

  /** `uploadGeoJson`: after the token check, an unset or empty workspace
      name is replaced by the fallback for good, and the zipped features are
      put into the fixed vector store; the layer name is not used. */
  function UploadGeoJson(svc: Service, features: seq<Features.Feature>, layerName: string, srv: Server): (r: (Service, Run<()>))
    ensures !Truthy(srv.token) ==> r == (svc, Run([], Thrown(NoToken)))
    ensures Truthy(srv.token) ==>
              var ws := if Truthy(svc.workspaceName) then svc.workspaceName.value else FallbackWorkspace;
              && r.0 == Service(Some(ws))
              && r.1.trace == [Request(Put, ShapefileUrl(ws, VectorStore), Bearer(srv.token.value), ShapefileZip(features))]
              && (r.1.outcome.Thrown? <==> srv.geoJsonUpload.Rejected?)
              && (srv.geoJsonUpload.Rejected? ==> r.1.outcome == Thrown(RequestFailed(srv.geoJsonUpload.status)))
  {
    if !Truthy(srv.token) then (svc, Run([], Thrown(NoToken)))
    else
      var svc' := if Truthy(svc.workspaceName) then svc else Service(Some(FallbackWorkspace));
      var put := Request(Put, ShapefileUrl(Workspace(svc'), VectorStore), Bearer(srv.token.value), ShapefileZip(features));
      var outcome := if srv.geoJsonUpload.Rejected? then Thrown(RequestFailed(srv.geoJsonUpload.status)) else Returned(());
      (svc', Run([put], outcome))
  }

  /** The layer name given to `uploadGeoJson` has no effect at all. */
  lemma GeoJsonIgnoresLayerName(svc: Service, features: seq<Features.Feature>, a: string, b: string, srv: Server)
    ensures UploadGeoJson(svc, features, a, srv) == UploadGeoJson(svc, features, b, srv)
  {
  }

  /** After one call that got a token, the service always has a usable
      workspace name. */
  lemma GeoJsonSettlesWorkspace(svc: Service, features: seq<Features.Feature>, layerName: string, srv: Server)
    requires Truthy(srv.token)
    ensures Truthy(UploadGeoJson(svc, features, layerName, srv).0.workspaceName)
  {
  }

  // ---------------------------------------------------------------------
  // deleteLayers

  /** `deleteLayers`: one recursive datastore DELETE per vector name, then one
      recursive coverage-store DELETE per raster name, none awaited. The token
      is not checked: a missing one is sent as "Bearer null". */
  method DeleteLayers(raster: seq<string>, vector: seq<string>, nickname: string, token: Option<string>)
    returns (trace: seq<Request>)
    ensures |trace| == |vector| + |raster|
    ensures forall i :: 0 <= i < |trace| ==> trace[i].verb == Delete && trace[i].body == NoBody
    ensures forall i :: 0 <= i < |vector| ==>
              trace[i] == Request(Delete, DataStoreDeleteUrl(nickname, vector[i]), Bearer(Show(token)), NoBody)
    ensures forall i :: 0 <= i < |raster| ==>
              trace[|vector| + i] == Request(Delete, CoverageStoreDeleteUrl(nickname, raster[i]), Bearer(Show(token)), NoBody)
  {
    var auth := Bearer(Show(token));
    trace := [];
    var i := 0;
    while i < |vector|
      invariant 0 <= i <= |vector|
      invariant |trace| == i
      invariant forall k :: 0 <= k < |trace| ==> trace[k].verb == Delete && trace[k].body == NoBody
      invariant forall k :: 0 <= k < i ==>
                  trace[k] == Request(Delete, DataStoreDeleteUrl(nickname, vector[k]), auth, NoBody)
    {
      trace := trace + [Request(Delete, DataStoreDeleteUrl(nickname, vector[i]), auth, NoBody)];
      i := i + 1;
    }
    var j := 0;
    while j < |raster|
      invariant 0 <= j <= |raster|
      invariant |trace| == |vector| + j
      invariant forall k :: 0 <= k < |trace| ==> trace[k].verb == Delete && trace[k].body == NoBody
      invariant forall k :: 0 <= k < |vector| ==>
                  trace[k] == Request(Delete, DataStoreDeleteUrl(nickname, vector[k]), auth, NoBody)
      invariant forall k :: 0 <= k < j ==>
                  trace[|vector| + k] == Request(Delete, CoverageStoreDeleteUrl(nickname, raster[k]), auth, NoBody)
    {
      trace := trace + [Request(Delete, CoverageStoreDeleteUrl(nickname, raster[j]), auth, NoBody)];
      j := j + 1;
    }
  }
}

=== FILE: indexpage.dfy ===
/** The vegetation-index page (src/app/index/index.component.ts): the band
    images are sent to the index service, and the returned GeoTIFF is
    published as a raster layer. The index service's HTTP exchange is
    reduced to the request it is sent and whether a blob came back. */
module IndexPage {
  import opened Js
  import GeoServer

  /** The index service's address; the index name is appended. */
  const IndexServiceBase := "http://127.0.0.1:8000/"

  /** The upload form's four file controls, each null until a file is picked. */
  datatype Images = Images(red: Option<File>, nir: Option<File>, blue: Option<File>, green: Option<File>)

  datatype Band = Red | Nir | Blue | Green

  function ImageOf(images: Images, band: Band): Option<File>
  {
    match band
    case Red => images.red
    case Nir => images.nir
    case Blue => images.blue
    case Green => images.green
  }

  /** The component's state. `indexType` is the route parameter, null when
      the route has none. */
  datatype Page = Page(
    indexType: Option<string>,
    images: Images,
    isLoading: bool,
    uploadedFileName: Option<string>,
    fileToUp: Option<File>)

  function Opened(indexType: Option<string>): Page
  {
    Page(indexType, Images(None, None, None, None), false, None, None)
  }

  /** `onFileSelected`: a picked file replaces that band's control; picking
      nothing changes nothing. */
  function OnFileSelected(p: Page, band: Band, picked: Option<File>): (r: Page)
    ensures picked.None? ==> r == p
    ensures picked.Some? ==> ImageOf(r.images, band) == picked
    ensures forall b :: b != band ==> ImageOf(r.images, b) == ImageOf(p.images, b)
    ensures r.(images := p.images) == p
  {
    match picked
    case None => p
    case Some(_) =>
      var im := p.images;
      var im' := match band
                 case Red => im.(red := picked)
                 case Nir => im.(nir := picked)
                 case Blue => im.(blue := picked)
                 case Green => im.(green := picked)
        ;
      p.(images := im')
  }

  /** A request to the index service. */
  datatype IndexRequest = IndexRequest(url: string, form: FormData)

  /** The form parts each index needs, by key, as a reference definition:
      red and near-infrared always, blue for EVI, green for CVI. */
  function PartsFor(indexType: Option<string>): seq<string>
  {
    ["red_file", "nir_file"]
      + (if indexType == Some("EVI") then ["blue_file"] else [])
      + (if indexType == Some("CVI") then ["green_file"] else [])
  }

  /** The request `uploadImages` sends. An unpicked blue or green image is
      appended as null, which the form stores as the text "null". */
  function IndexForm(indexType: Option<string>, images: Images, red: File, nir: File): FormData
  {
    [("red_file", FileValue(red)), ("nir_file", FileValue(nir))]
      + (if indexType == Some("EVI") then [("blue_file", FilePart(images.blue))] else [])
      + (if indexType == Some("CVI") then [("green_file", FilePart(images.green))] else [])
  }

  /** The form holds exactly the needed parts, in order: the red and
      near-infrared files, and the blue or green control's value. */
  lemma IndexFormParts(indexType: Option<string>, images: Images, red: File, nir: File)
    ensures FormKeys(IndexForm(indexType, images, red, nir)) == PartsFor(indexType)
    ensures FormGet(IndexForm(indexType, images, red, nir), "red_file") == Some(FileValue(red))
    ensures FormGet(IndexForm(indexType, images, red, nir), "nir_file") == Some(FileValue(nir))
    ensures indexType == Some("EVI") ==>
              FormGet(IndexForm(indexType, images, red, nir), "blue_file") == Some(FilePart(images.blue))
    ensures indexType == Some("CVI") ==>
              FormGet(IndexForm(indexType, images, red, nir), "green_file") == Some(FilePart(images.green))
  {
    var form := IndexForm(indexType, images, red, nir);
    assert form[0] == ("red_file", FileValue(red)) && form[1] == ("nir_file", FileValue(nir));
    assert "EVI"[0] != "CVI"[0];
    if indexType == Some("EVI") {
      assert form == [form[0], form[1], ("blue_file", FilePart(images.blue))];
      assert FormKeys(form) == ["red_file", "nir_file", "blue_file"];
      assert "red_file"[0] != "blue_file"[0] && "nir_file"[0] != "blue_file"[0];
      assert form[1..][1..] == [("blue_file", FilePart(images.blue))];
      assert FormGet(form[1..][1..], "blue_file") == Some(FilePart(images.blue));
      assert FormGet(form[1..], "blue_file") == FormGet(form[1..][1..], "blue_file");
      assert FormGet(form, "blue_file") == FormGet(form[1..], "blue_file");
    } else if indexType == Some("CVI") {
      assert form == [form[0], form[1], ("green_file", FilePart(images.green))];
      assert FormKeys(form) == ["red_file", "nir_file", "green_file"];
      assert "red_file"[0] != "green_file"[0] && "nir_file"[0] != "green_file"[0];
      assert form[1..][1..] == [("green_file", FilePart(images.green))];
      assert FormGet(form[1..][1..], "green_file") == Some(FilePart(images.green));
      assert FormGet(form[1..], "green_file") == FormGet(form[1..][1..], "green_file");
      assert FormGet(form, "green_file") == FormGet(form[1..], "green_file");
    } else {
      assert form == [form[0], form[1]];
    }
  }

  /** `uploadImages`: without a red or a near-infrared image nothing is
      sent; otherwise the red image's name cut at its last '.' is kept, the
      loading flag goes up and the bands go to the index service. */
  function UploadImages(p: Page): (r: (Page, Option<IndexRequest>))
    ensures p.images.red.None? || p.images.nir.None? ==> r == (p, None)
    ensures p.images.red.Some? && p.images.nir.Some? ==>
              var name := p.images.red.value.name;
              && r.1.Some?
              && r.1.value.url == IndexServiceBase + Show(p.indexType)
              && r.0 == p.(isLoading := true, uploadedFileName := Some(Substring(name, 0, LastIndexOf(name, '.'))))
              && FormKeys(r.1.value.form) == PartsFor(p.indexType)
              && FormGet(r.1.value.form, "red_file") == Some(FileValue(p.images.red.value))
              && FormGet(r.1.value.form, "nir_file") == Some(FileValue(p.images.nir.value))
              && (p.indexType == Some("EVI") ==> FormGet(r.1.value.form, "blue_file") == Some(FilePart(p.images.blue)))
              && (p.indexType == Some("CVI") ==> FormGet(r.1.value.form, "green_file") == Some(FilePart(p.images.green)))
  {
    match (p.images.red, p.images.nir)
    case (Some(red), Some(nir)) =>
      var base := Substring(red.name, 0, LastIndexOf(red.name, '.'));
      var form := IndexForm(p.indexType, p.images, red, nir);
      IndexFormParts(p.indexType, p.images, red, nir);
      (p.(isLoading := true, uploadedFileName := Some(base)), Some(IndexRequest(IndexServiceBase + Show(p.indexType), form)))
    case _ => (p, None)
  }

  /** The kept name is the red image's name without its extension, and ""
      for a name without '.'. */
  lemma UploadedNameIsBaseName(p: Page)
    requires p.images.red.Some? && p.images.nir.Some?
    ensures UploadImages(p).0.uploadedFileName == Some(StripExtension(p.images.red.value.name))
    ensures '.' !in p.images.red.value.name ==> UploadImages(p).0.uploadedFileName == Some("")
  {
    StripExtensionIsPrefix(p.images.red.value.name);
  }

  /** The form carries every part the index needs, once each, and nothing
      else. */
  lemma IndexFormHasExactlyItsParts(p: Page)
    requires p.images.red.Some? && p.images.nir.Some?
    ensures var form := UploadImages(p).1.value.form;
            forall key :: FormGet(form, key).Some? <==> key in PartsFor(p.indexType)
  {
    var form := UploadImages(p).1.value.form;
    forall key
      ensures FormGet(form, key).Some? <==> key in PartsFor(p.indexType)
    {
      var ks := FormKeys(form);
      if key in PartsFor(p.indexType) {
        var i :| 0 <= i < |ks| && ks[i] == key;
        assert form[i].0 == key;
      }
    }
  }

  /** The name the result is published under: index, '_', kept name. */
  function LayerNameOf(p: Page): string
  {
    Show(p.indexType) + "_" + Show(p.uploadedFileName)
  }

  /** The form handed to the raster upload: the file, then the layer name. */
  function PublishForm(file: File, layerName: string): FormData
  {
    [("file", FileValue(file)), ("layerName", TextValue(layerName))]
  }

  /** The index service's answer: a GeoTIFF blob, or an error. */
  datatype IndexReply = Blob | Failed

  /** The request's callbacks: on an error only the loading flag drops; on
      a blob the result file "<layer>.tiff" is kept and published as the
      raster layer "<index>_<name>", without waiting for the outcome. */
  function OnIndexReply(p: Page, reply: IndexReply, svc: GeoServer.Service, srv: GeoServer.Server)
    : (r: (Page, Option<GeoServer.Run<bool>>))
    ensures reply == Failed ==> r == (p.(isLoading := false), None)
    ensures reply == Blob ==>
              && r.0 == p.(isLoading := false, fileToUp := Some(File(LayerNameOf(p) + ".tiff")))
              && r.1 == Some(GeoServer.UploadRasterLayer(svc, PublishForm(r.0.fileToUp.value, LayerNameOf(p)), LayerNameOf(p), srv))
  {
    match reply
    case Failed => (p.(isLoading := false), None)
    case Blob =>
      var file := File(LayerNameOf(p) + ".tiff");
      (p.(isLoading := false, fileToUp := Some(file)),
       Some(GeoServer.UploadRasterLayer(svc, PublishForm(file, LayerNameOf(p)), LayerNameOf(p), srv)))
  }

  /** `onPublishClick`: without a result file nothing happens; otherwise the
      result file is published under the layer name. */
  function OnPublishClick(p: Page, svc: GeoServer.Service, srv: GeoServer.Server): (r: Option<GeoServer.Run<bool>>)
    ensures p.fileToUp.None? <==> r.None?
    // a completed publication ends with the GeoTIFF upload of that very file
    ensures r.Some? && r.value.outcome == GeoServer.Returned(true) ==>
              var t := r.value.trace;
              && |t| >= 3
              && t[|t| - 1].verb == GeoServer.Put
              && t[|t| - 1].url == GeoServer.GeoTiffUrl(GeoServer.Workspace(svc), LayerNameOf(p))
              && t[|t| - 1].body == GeoServer.Upload(Some(FileValue(p.fileToUp.value)))
  {
    match p.fileToUp
    case None => None
    case Some(file) =>
      var form := PublishForm(file, LayerNameOf(p));
      assert FormGet(form, "file") == Some(FileValue(file));
      Some(GeoServer.UploadRasterLayer(svc, form, LayerNameOf(p), srv))
  }

  /** Pressing "publish" after the result arrived repeats exactly the
      publication the result's arrival already started. */
  lemma PublishRepeatsAutomaticUpload(p: Page, svc: GeoServer.Service, srv: GeoServer.Server)
    ensures var (q, run) := OnIndexReply(p, Blob, svc, srv);
            OnPublishClick(q, svc, srv) == run
  {
  }

  /** Once the automatic publication has created the coverage store, a later
      press of "publish" finds the store and stops at the collision guard:
      it answers false and neither creates a store nor uploads the file. */
  lemma PublishAfterAutomaticUploadHitsGuard(p: Page, svc: GeoServer.Service, srv: GeoServer.Server,
                                             later: GeoServer.Server)
    ensures var (q, run) := OnIndexReply(p, Blob, svc, srv);
            run.Some? && run.value.outcome == GeoServer.Returned(true)
            && GeoServer.RasterReachesStoreCheck(later) && later.coverageStore != GeoServer.Rejected(404) ==>
              var again := OnPublishClick(q, svc, later);
              && again.Some?
              && again.value.outcome == GeoServer.Returned(false)
              && !GeoServer.Issued(again.value.trace, GeoServer.Post, GeoServer.CoverageStoresUrl(GeoServer.Workspace(svc)))
              && !GeoServer.Issued(again.value.trace, GeoServer.Put, GeoServer.GeoTiffUrl(GeoServer.Workspace(svc), LayerNameOf(p)))
  {
  }

  /** The whole round: from picked red and near-infrared images, a returned
      blob is published as "<index>_<red image's base name>". */
  lemma PublishedLayerName(p: Page, svc: GeoServer.Service, srv: GeoServer.Server)
    requires p.images.red.Some? && p.images.nir.Some?
    ensures var q := UploadImages(p).0;
            var (q', run) := OnIndexReply(q, Blob, svc, srv);
            && LayerNameOf(q) == Show(p.indexType) + "_" + StripExtension(p.images.red.value.name)
            && q'.fileToUp == Some(File(LayerNameOf(q) + ".tiff"))
            && !q'.isLoading
  {
    UploadedNameIsBaseName(p);
  }
}

=== FILE: js.dfy ===
/** The slice of JavaScript and browser value semantics the client relies on:
    `string | null`, truthiness, template-literal rendering, the String and
    Number methods it calls, and `FormData`. */
module Js {

  /** A value that may be `null`. */
  datatype Option<+T> = None | Some(value: T)

  /** What `${x}` (or `'' + x`) produces for a `string | null`. */
  function Show(s: Option<string>): (r: string)
    ensures s.Some? ==> r == s.value
    ensures s.None? ==> r == "null"
  {
    match s
    case None => "null"
    case Some(v) => v
  }

  /** JavaScript truthiness of a `string | null`: both null and "" are falsy. */
  predicate Truthy(s: Option<string>)
  {
    s.Some? && s.value != ""
  }

  // ---------------------------------------------------------------------
  // String.prototype.lastIndexOf / substring / split / join

  /** `s.lastIndexOf(c)` for a one-character needle: -1 when `c` does not occur. */
  function LastIndexOf(s: string, c: char): (r: int)
    ensures -1 <= r < |s|
    ensures r == -1 <==> c !in s
    ensures r >= 0 ==> s[r] == c
    ensures forall j :: r < j < |s| ==> s[j] != c
  {
    if |s| == 0 then -1
    else if s[|s| - 1] == c then |s| - 1
    else LastIndexOf(s[..|s| - 1], c)
  }

  function Clamp(i: int, len: nat): (r: nat)
    ensures r <= len
    ensures 0 <= i <= len ==> r == i
  {
    if i < 0 then 0 else if i > len then len else i
  }

  /** `s.substring(start, end)`: both bounds are clamped into [0, |s|] and
      swapped when the first exceeds the second. */
  function Substring(s: string, start: int, end: int): (r: string)
    ensures 0 <= start <= end <= |s| ==> r == s[start..end]
    ensures end < 0 ==> r == s[..Clamp(start, |s|)]
  {
    var a := Clamp(start, |s|);
    var b := Clamp(end, |s|);
    if a <= b then s[a..b] else s[b..a]
  }

  /** `s.split(sep)` for a one-character separator; "" splits into [""]. */
  function Split(s: string, sep: char): (parts: seq<string>)
    ensures |parts| >= 1
  {
    if |s| == 0 then [""]
    else
      var rest := Split(s[1..], sep);
      if s[0] == sep then [""] + rest
      else [[s[0]] + rest[0]] + rest[1..]
  }

  /** No part holds the separator. */
  lemma {:induction false} SplitPartsLackSeparator(s: string, sep: char)
    ensures forall i :: 0 <= i < |Split(s, sep)| ==> sep !in Split(s, sep)[i]
  {
    if |s| > 0 {
      var rest := Split(s[1..], sep);
      SplitPartsLackSeparator(s[1..], sep);
      if s[0] != sep {
        var parts := Split(s, sep);
        assert parts[0] == [s[0]] + rest[0];
        assert forall i :: 1 <= i < |parts| ==> parts[i] == rest[i];
      }
    }
  }

  /** `parts.join(sep)`: [] joins to "". */
  function Join(parts: seq<string>, sep: char): string
  {
    if |parts| == 0 then ""
    else if |parts| == 1 then parts[0]
    else parts[0] + [sep] + Join(parts[1..], sep)
  }

  /** Joining what `Split` produced gives back the original string. */
  lemma {:induction false} JoinSplit(s: string, sep: char)
    ensures Join(Split(s, sep), sep) == s
  {
    if |s| > 0 {
      var rest := Split(s[1..], sep);
      JoinSplit(s[1..], sep);
      if s[0] == sep {
        assert Split(s, sep) == [""] + rest;
        assert ([""] + rest)[1..] == rest;
      } else if |rest| == 1 {
        assert Split(s, sep) == [[s[0]] + rest[0]];
      } else {
        var parts := Split(s, sep);
        assert parts == [[s[0]] + rest[0]] + rest[1..];
        assert parts[1..] == rest[1..];
        assert Join(rest, sep) == rest[0] + [sep] + Join(rest[1..], sep);
      }
    }
  }

  /** A string without the separator splits into itself alone. */
  lemma {:induction false} SplitWithoutSeparator(s: string, sep: char)
    requires sep !in s
    ensures Split(s, sep) == [s]
  {
    if |s| > 0 {
      SplitWithoutSeparator(s[1..], sep);
      assert [s[0]] + s[1..] == s;
    }
  }

  /** Splitting a string made of two pieces around a separator splits each
      piece on its own. */
  lemma {:induction false} SplitConcat(a: string, b: string, sep: char)
    ensures Split(a + [sep] + b, sep) == Split(a, sep) + Split(b, sep)
  {
    var s := a + [sep] + b;
    var rb := Split(b, sep);
    if |a| == 0 {
      assert Split(s, sep) == [""] + rb by {
        assert s[0] == sep && s[1..] == b;
      }
    } else {
      var ra := Split(a[1..], sep);
      assert Split(s[1..], sep) == ra + rb by {
        assert s[1..] == a[1..] + [sep] + b;
        SplitConcat(a[1..], b, sep);
      }
      if a[0] == sep {
        assert Split(s, sep) == Split(a, sep) + rb by {
          assert s[0] == sep;
        }
      } else {
        var x := [a[0]] + ra[0];
        assert Split(s, sep) == [x] + (ra[1..] + rb) by {
          assert s[0] == a[0];
          assert (ra + rb)[0] == ra[0] && (ra + rb)[1..] == ra[1..] + rb;
        }
        assert [x] + (ra[1..] + rb) == ([x] + ra[1..]) + rb;
      }
    }
  }

  /** Splitting at every separator is splitting the part before the last
      separator and then adding the part after it. */
  lemma SplitAtLast(s: string, sep: char)
    requires sep in s
    ensures var k := LastIndexOf(s, sep);
            0 <= k && Split(s, sep) == Split(s[..k], sep) + [s[k + 1..]]
  {
    var k := LastIndexOf(s, sep);
    assert s == s[..k] + [sep] + s[k + 1..];
    SplitConcat(s[..k], s[k + 1..], sep);
    var after := s[k + 1..];
    assert sep !in after by {
      forall j | 0 <= j < |after| ensures after[j] != sep {
        assert after[j] == s[k + 1 + j];
      }
    }
    SplitWithoutSeparator(after, sep);
  }

  /** `name.split('.').slice(0, -1).join('.')`: every dot-separated part but
      the last, joined back with dots. */
  function StripExtension(name: string): string
  {
    var parts := Split(name, '.');
    Join(parts[..|parts| - 1], '.')
  }

  /** Dropping the last dot-part is cutting the name at its last '.', and
      gives "" when the name has no '.'; so it agrees with
      `name.substring(0, name.lastIndexOf('.'))`. */
  lemma StripExtensionIsPrefix(name: string)
    ensures '.' !in name ==> StripExtension(name) == ""
    ensures '.' in name ==> StripExtension(name) == name[..LastIndexOf(name, '.')]
    ensures StripExtension(name) == Substring(name, 0, LastIndexOf(name, '.'))
  {
    var parts := Split(name, '.');
    if '.' in name {
      var k := LastIndexOf(name, '.');
      SplitAtLast(name, '.');
      assert parts[..|parts| - 1] == Split(name[..k], '.');
      JoinSplit(name[..k], '.');
    } else {
      SplitWithoutSeparator(name, '.');
    }
  }

  // ---------------------------------------------------------------------
  // Number.prototype.toString(16) and String.prototype.toUpperCase

  predicate IsLowerHexDigit(c: char)
  {
    '0' <= c <= '9' || 'a' <= c <= 'f'
  }

  predicate IsUpperHexDigit(c: char)
  {
    '0' <= c <= '9' || 'A' <= c <= 'F'
  }

  predicate IsHexDigit(c: char)
  {
    IsLowerHexDigit(c) || IsUpperHexDigit(c)
  }

  predicate AllHexDigits(s: string)
  {
    forall i :: 0 <= i < |s| ==> IsHexDigit(s[i])
  }

  /** The lower-case digit `toString(16)` writes for d. */
  function HexDigit(d: nat): (c: char)
    requires d < 16
    ensures IsLowerHexDigit(c)
  {
    if d < 10 then ('0' as int + d) as char else ('a' as int + d - 10) as char
  }

  /** The value of a hex digit of either case. */
  function DigitValue(c: char): (v: nat)
    requires IsHexDigit(c)
    ensures v < 16
  {
    if '0' <= c <= '9' then c as int - '0' as int
    else if 'a' <= c <= 'f' then c as int - 'a' as int + 10
    else c as int - 'A' as int + 10
  }

  /** The number a string of hex digits denotes, most significant first. */
  function HexValue(s: string): nat
    requires AllHexDigits(s)
  {
    if |s| == 0 then 0 else 16 * HexValue(s[..|s| - 1]) + DigitValue(s[|s| - 1])
  }

  function Pow16(k: nat): (p: nat)
    ensures p >= 1
  {
    if k == 0 then 1 else 16 * Pow16(k - 1)
  }

  /** `n.toString(16)` for a non-negative integer: lower-case digits, no leading zero. */
  function ToHexString(n: nat): (r: string)
    ensures |r| >= 1
    ensures forall i :: 0 <= i < |r| ==> IsLowerHexDigit(r[i])
  {
    if n < 16 then [HexDigit(n)]
    else ToHexString(n / 16) + [HexDigit(n % 16)]
  }

  /** Reading back what `toString(16)` wrote gives the number. */
  lemma {:induction false} HexValueOfToHexString(n: nat)
    ensures HexValue(ToHexString(n)) == n
  {
    var s := ToHexString(n);
    if n >= 16 {
      HexValueOfToHexString(n / 16);
      assert s[..|s| - 1] == ToHexString(n / 16);
    }
  }

  /** A number in [16^k, 16^(k+1)) is written with exactly k + 1 hex digits. */
  lemma {:induction false} ToHexStringLength(n: nat, k: nat)
    requires Pow16(k) <= n < Pow16(k + 1)
    ensures |ToHexString(n)| == k + 1
  {
    if k > 0 {
      assert n >= 16;
      assert Pow16(k) == 16 * Pow16(k - 1);
      assert Pow16(k + 1) == 16 * Pow16(k);
      assert Pow16(k - 1) <= n / 16 < Pow16(k);
      ToHexStringLength(n / 16, k - 1);
    } else {
      assert n < 16;
    }
  }

  /** A hex string is its first digit scaled by its position plus the rest. */
  lemma {:induction false} HexValueFront(s: string)
    requires |s| >= 1 && AllHexDigits(s)
    ensures HexValue(s) == DigitValue(s[0]) * Pow16(|s| - 1) + HexValue(s[1..])
  {
    if |s| > 1 {
      var n := |s|;
      var init, rest := s[..n - 1], s[1..];
      HexValueFront(init);
      assert init[1..] == rest[..n - 2];
      assert rest[n - 2] == s[n - 1];
      var d0, dl := DigitValue(s[0]), DigitValue(s[n - 1]);
      assert HexValue(init) == d0 * Pow16(n - 2) + HexValue(init[1..]);
      assert HexValue(rest) == 16 * HexValue(init[1..]) + dl;
      assert HexValue(s) == 16 * HexValue(init) + dl;
      assert Pow16(n - 1) == 16 * Pow16(n - 2);
      ScaleBy16(d0, Pow16(n - 2));
    }
  }

  lemma ScaleBy16(a: nat, b: nat)
    ensures 16 * (a * b) == a * (16 * b)
  {
  }

  /** k hex digits denote less than 16^k. */
  lemma {:induction false} HexValueBound(s: string)
    requires AllHexDigits(s)
    ensures HexValue(s) < Pow16(|s|)
  {
    if |s| > 0 {
      HexValueBound(s[..|s| - 1]);
    }
  }

  /** ASCII upper-casing of one character. */
  function UpperChar(c: char): (u: char)
    ensures IsLowerHexDigit(c) ==> IsUpperHexDigit(u)
    ensures IsHexDigit(c) ==> IsHexDigit(u) && DigitValue(u) == DigitValue(c)
  {
    if 'a' <= c <= 'z' then (c as int - 'a' as int + 'A' as int) as char else c
  }

  /** `s.toUpperCase()` restricted to ASCII letters. */
  function ToUpper(s: string): (r: string)
    ensures |r| == |s|
    ensures forall i :: 0 <= i < |s| ==> r[i] == UpperChar(s[i])
  {
    seq(|s|, i requires 0 <= i < |s| => UpperChar(s[i]))
  }

  /** Upper-casing a hex string keeps its value. */
  lemma {:induction false} HexValueToUpper(s: string)
    requires AllHexDigits(s)
    ensures AllHexDigits(ToUpper(s)) && HexValue(ToUpper(s)) == HexValue(s)
  {
    if |s| > 0 {
      var u := ToUpper(s);
      HexValueToUpper(s[..|s| - 1]);
      assert u[..|u| - 1] == ToUpper(s[..|s| - 1]);
    }
  }

  // ---------------------------------------------------------------------
  // Number.prototype.toString() for non-negative integers

  function DecimalString(n: nat): (r: string)
    ensures |r| >= 1
    ensures forall i :: 0 <= i < |r| ==> '0' <= r[i] <= '9'
  {
    var d := ('0' as int + n % 10) as char;
    if n < 10 then [d] else DecimalString(n / 10) + [d]
  }

  // ---------------------------------------------------------------------
  // Browser files and FormData

  /** A file picked in the browser; only its name matters here. */
  datatype File = File(name: string)

  /** A `FormData` entry: a file, or a string (`append(k, null)` stores "null"). */
  datatype FormValue = FileValue(file: File) | TextValue(text: string)

  /** `FormData`: entries in insertion order. */
  type FormData = seq<(string, FormValue)>

  /** What `append(key, v)` stores for a `File | null`. */
  function FilePart(f: Option<File>): (v: FormValue)
    ensures f.Some? ==> v == FileValue(f.value)
    ensures f.None? ==> v == TextValue("null")
  {
    match f
    case Some(file) => FileValue(file)
    case None => TextValue("null")
  }

  /** `form.get(key)`: the first entry with that key, or null. */
  function FormGet(form: FormData, key: string): (r: Option<FormValue>)
    ensures r.None? <==> forall i :: 0 <= i < |form| ==> form[i].0 != key
    ensures r.Some? ==>
              exists i :: 0 <= i < |form| && form[i] == (key, r.value) && forall j :: 0 <= j < i ==> form[j].0 != key
  {
    if |form| == 0 then None
    else if form[0].0 == key then Some(form[0].1)
    else
      var r := FormGet(form[1..], key);
      assert r.Some? ==> exists k :: 0 <= k < |form| && form[k] == (key, r.value)
                                     && forall j :: 0 <= j < k ==> form[j].0 != key by {
        if r.Some? {
          var i :| 0 <= i < |form[1..]| && form[1..][i] == (key, r.value)
                   && forall j :: 0 <= j < i ==> form[1..][j].0 != key;
          forall j | 0 <= j < i + 1 ensures form[j].0 != key {
            if j > 0 { assert form[j] == form[1..][j - 1]; }
          }
          assert form[i + 1] == (key, r.value);
        }
      }
      r
  }

  /** The keys of a form, in insertion order. */
  function FormKeys(form: FormData): (ks: seq<string>)
    ensures |ks| == |form|
    ensures forall i :: 0 <= i < |form| ==> ks[i] == form[i].0
  {
    seq(|form|, i requires 0 <= i < |form| => form[i].0)
  }
}

=== FILE: layerlist.dfy ===
/** The layer list beside the map (src/app/layer-list/layer-list.component.ts):
    the visibility toggle and the re-stacking of the map's layer collection
    after the list was reordered by drag and drop. */
module LayerList {
  import opened Js
  import Seqs

  /** A layer's identity; the map's collection holds references to layers. */
  type LayerId = nat

  /** The two layer properties the list changes. */
  datatype OlLayer = OlLayer(visible: bool, zIndex: Option<int>)

  /** `toggleLayerVisibility`. */
  function ToggleLayerVisibility(l: OlLayer): (r: OlLayer)
    ensures r.visible != l.visible
    ensures r.zIndex == l.zIndex
  {
    l.(visible := !l.visible)
  }

  /** Toggling twice restores the layer. */
  lemma ToggleTwice(l: OlLayer)
    ensures ToggleLayerVisibility(ToggleLayerVisibility(l)) == l
  {
  }

  /** `updateLayerOrderOnMap` over the list as already reordered: the map's
      collection (None when no map is bound) and the layers' z-indices, by
      layer. Each listed layer is removed from the collection where present,
      all listed layers are pushed back in list order, and layer i of the
      list gets z-index i + 1. */
  method UpdateLayerOrderOnMap(olMap: Option<seq<LayerId>>, listed: seq<LayerId>, z: map<LayerId, int>)
    returns (olMap': Option<seq<LayerId>>, z': map<LayerId, int>)
    ensures olMap.None? ==> olMap' == olMap && z' == z
    ensures olMap.Some? ==> olMap' == Some(Seqs.RemoveEach(olMap.value, listed) + listed)
    // every listed layer takes the position of its last occurrence in the list
    ensures olMap.Some? ==>
              forall i :: 0 <= i < |listed| && LastOccurrence(listed, i) ==> listed[i] in z' && z'[listed[i]] == i + 1
    // layers not in the list keep their z-index
    ensures olMap.Some? ==> forall id :: id !in listed ==> (id in z' <==> id in z) && (id in z ==> z'[id] == z[id])
  {
    if olMap.None? {
      return olMap, z;
    }
    var kept := RemoveListed(olMap.value, listed);
    var coll := PushAll(kept, listed);
    olMap' := Some(coll);
    z' := AssignZIndices(listed, z);
  }

  /** The second loop: pushes the listed layers in list order. */
  method PushAll(coll: seq<LayerId>, listed: seq<LayerId>) returns (r: seq<LayerId>)
    ensures r == coll + listed
  {
    r := coll;
    var k := 0;
    while k < |listed|
      invariant 0 <= k <= |listed|
      invariant r == coll + listed[..k]
    {
      assert listed[..k + 1] == listed[..k] + [listed[k]];
      r := r + [listed[k]];
      k := k + 1;
    }
    assert listed[..|listed|] == listed;
  }

  /** The first loop: removes each listed layer the collection holds. */
  method RemoveListed(coll: seq<LayerId>, listed: seq<LayerId>) returns (r: seq<LayerId>)
    ensures r == Seqs.RemoveEach(coll, listed)
  {
    r := coll;
    var i := 0;
    while i < |listed|
      invariant 0 <= i <= |listed|
      invariant r == Seqs.RemoveEach(coll, listed[..i])
    {
      assert listed[..i + 1][..i] == listed[..i];
      if listed[i] in r {
        r := Seqs.RemoveFirst(r, listed[i]);
      }
      i := i + 1;
    }
    assert listed[..|listed|] == listed;
  }

  /** Position i holds the last occurrence of its element. */
  predicate LastOccurrence(s: seq<LayerId>, i: nat)
    requires i < |s|
  {
    forall j :: i < j < |s| ==> s[j] != s[i]
  }

  /** The z-indices after assigning position + 1 to each listed layer in
      list order. */
  function ZIndices(listed: seq<LayerId>, z: map<LayerId, int>): map<LayerId, int>
  {
    if |listed| == 0 then z
    else ZIndices(listed[..|listed| - 1], z)[listed[|listed| - 1] := |listed|]
  }

  /** Each listed layer ends with the index of its last occurrence. */
  lemma {:induction false} ZIndicesLast(listed: seq<LayerId>, z: map<LayerId, int>)
    ensures forall i :: 0 <= i < |listed| && LastOccurrence(listed, i) ==>
              listed[i] in ZIndices(listed, z) && ZIndices(listed, z)[listed[i]] == i + 1
  {
    if |listed| > 0 {
      var n := |listed| - 1;
      var init := listed[..n];
      var m := ZIndices(listed, z);
      ZIndicesLast(init, z);
      assert m == ZIndices(init, z)[listed[n] := n + 1];
      forall i | 0 <= i < |listed| && LastOccurrence(listed, i)
        ensures listed[i] in m && m[listed[i]] == i + 1
      {
        if i < n {
          assert listed[n] != listed[i];
          assert init[i] == listed[i];
          assert LastOccurrence(init, i);
        }
      }
    }
  }

  /** A layer outside the list keeps its index, or stays without one. */
  lemma {:induction false} ZIndicesKeep(listed: seq<LayerId>, z: map<LayerId, int>)
    ensures forall id :: id !in listed ==>
              (id in ZIndices(listed, z) <==> id in z) && (id in z ==> ZIndices(listed, z)[id] == z[id])
  {
    if |listed| > 0 {
      var n := |listed| - 1;
      var init := listed[..n];
      ZIndicesKeep(init, z);
      assert forall id :: id in init ==> id in listed;
    }
  }

  /** The z-index loop: a layer listed twice keeps its later position. */
  method AssignZIndices(listed: seq<LayerId>, z: map<LayerId, int>) returns (z': map<LayerId, int>)
    ensures forall i :: 0 <= i < |listed| && LastOccurrence(listed, i) ==> listed[i] in z' && z'[listed[i]] == i + 1
    ensures forall id :: id !in listed ==> (id in z' <==> id in z) && (id in z ==> z'[id] == z[id])
  {
    z' := z;
    var n := 0;
    while n < |listed|
      invariant 0 <= n <= |listed|
      invariant z' == ZIndices(listed[..n], z)
    {
      assert listed[..n + 1][..n] == listed[..n];
      z' := z'[listed[n] := n + 1];
      n := n + 1;
    }
    assert listed[..|listed|] == listed;
    ZIndicesLast(listed, z);
    ZIndicesKeep(listed, z);
  }

  /** With distinct listed layers and a duplicate-free collection, the new
      collection is the unlisted layers in their old relative order followed
      by the listed ones, and the z-indices the loop assigns strictly
      increase along the list. */
  lemma {:induction false} ReorderShape(coll: seq<LayerId>, listed: seq<LayerId>, z: map<LayerId, int>)
    requires Seqs.NoDup(coll) && Seqs.NoDup(listed)
    ensures Seqs.RemoveEach(coll, listed) + listed == Seqs.Without(coll, listed) + listed
    ensures Seqs.Subsequence(Seqs.Without(coll, listed), coll)
    ensures forall id :: id in Seqs.Without(coll, listed) <==> id in coll && id !in listed
    ensures var z' := ZIndices(listed, z);
            forall i, j :: 0 <= i < j < |listed| ==>
              listed[i] in z' && listed[j] in z' && z'[listed[i]] < z'[listed[j]]
  {
    Seqs.RemoveEachIsWithout(coll, listed);
    Seqs.WithoutMembers(coll, listed);
    ZIndicesLast(listed, z);
    forall i | 0 <= i < |listed|
      ensures LastOccurrence(listed, i)
    {
    }
  }
}

=== FILE: mapview.dfy ===
/** The map page's layer bookkeeping and legend helpers
    (src/app/map/map.component.ts): the layer lists filled from parsed
    capabilities records, the delete of selected personal layers, the legend
    table and its layout counters, and `rgbToHex`. */
module MapView {
  import opened Js
  import Seqs
  import GeoServer

  /** One row of a layer list: its title, its GeoServer name and whether
      the user ticked it. */
  datatype Entry = Entry(title: string, layerName: string, selected: bool)

  /** The component's layer lists. `combinedVectors` is the list the drawing
      tools and the attribute table are offered. */
  datatype View = View(
    vectorLayers: seq<Entry>,
    rasterLayers: seq<Entry>,
    personalVectorLayers: seq<Entry>,
    personalRasterLayers: seq<Entry>,
    combinedVectors: seq<Entry>)

  const Empty: View := View([], [], [], [], [])

  /** The combined list is the shared vector layers followed by the personal ones. */
  predicate CombinedCurrent(v: View)
  {
    v.combinedVectors == v.vectorLayers + v.personalVectorLayers
  }

  // ---------------------------------------------------------------------
  // Vector loaders

  /** A parsed WFS `FeatureType`: the text of its first `Name` and first
      `Title` element, or None when the element is missing. */
  datatype FeatureTypeRecord = FeatureTypeRecord(name: Option<string>, title: Option<string>)

  /** A feature type becomes a layer only when both elements exist; their
      text may be empty. */
  predicate Admitted(rec: FeatureTypeRecord)
  {
    rec.name.Some? && rec.title.Some?
  }

  function VectorEntry(rec: FeatureTypeRecord): Entry
    requires Admitted(rec)
  {
    Entry(rec.title.value, rec.name.value, false)
  }

  /** The entries the vector loaders push, one per admitted feature type. */
  function VectorEntries(records: seq<FeatureTypeRecord>): seq<Entry>
  {
    if |records| == 0 then []
    else
      var rest := VectorEntries(records[1..]);
      if Admitted(records[0]) then [VectorEntry(records[0])] + rest else rest
  }

  /** The vector loaders keep exactly the admitted feature types, in order:
      entry i comes from the i-th admitted record. */
  lemma {:induction false} VectorEntriesAreAdmitted(records: seq<FeatureTypeRecord>)
    ensures var kept := Seqs.Filter(records, Admitted);
            var es := VectorEntries(records);
            && |es| == |kept|
            && forall i :: 0 <= i < |es| ==>
                 kept[i].title == Some(es[i].title) && kept[i].name == Some(es[i].layerName) && !es[i].selected
  {
    if |records| > 0 {
      VectorEntriesAreAdmitted(records[1..]);
    }
  }

  /** `loadVectorLayers`: appends the shared workspace's feature types and
      recomputes the combined list. */
  function LoadVectorLayers(v: View, records: seq<FeatureTypeRecord>): (r: View)
    ensures r.vectorLayers == v.vectorLayers + VectorEntries(records)
    ensures CombinedCurrent(r)
    ensures r.rasterLayers == v.rasterLayers && r.personalVectorLayers == v.personalVectorLayers
    ensures r.personalRasterLayers == v.personalRasterLayers
  {
    var vs := v.vectorLayers + VectorEntries(records);
    v.(vectorLayers := vs, combinedVectors := vs + v.personalVectorLayers)
  }

  /** `loadPersonalVectorLayers`: the same for the user's own workspace. */
  function LoadPersonalVectorLayers(v: View, records: seq<FeatureTypeRecord>): (r: View)
    ensures r.personalVectorLayers == v.personalVectorLayers + VectorEntries(records)
    ensures CombinedCurrent(r)
    ensures r.vectorLayers == v.vectorLayers && r.rasterLayers == v.rasterLayers
    ensures r.personalRasterLayers == v.personalRasterLayers
  {
    var ps := v.personalVectorLayers + VectorEntries(records);
    v.(personalVectorLayers := ps, combinedVectors := v.vectorLayers + ps)
  }

  /** Whichever of the two vector loaders answers last, the combined list ends
      up as shared-then-personal, with both answers in it. */
  lemma VectorLoadersCommute(v: View, shared: seq<FeatureTypeRecord>, personal: seq<FeatureTypeRecord>)
    ensures LoadPersonalVectorLayers(LoadVectorLayers(v, shared), personal)
            == LoadVectorLayers(LoadPersonalVectorLayers(v, personal), shared)
    ensures LoadPersonalVectorLayers(LoadVectorLayers(v, shared), personal).combinedVectors
            == v.vectorLayers + VectorEntries(shared) + v.personalVectorLayers + VectorEntries(personal)
  {
    var vs := v.vectorLayers + VectorEntries(shared);
    var ps := v.personalVectorLayers + VectorEntries(personal);
    assert vs + ps == v.vectorLayers + VectorEntries(shared) + v.personalVectorLayers + VectorEntries(personal);
  }

  // ---------------------------------------------------------------------
  // Raster loaders

  /** A parsed WMS `Layer`: the text of its first `Name` (None when there is
      none) and the texts of its `Keyword` elements. */
  datatype LayerRecord = LayerRecord(name: Option<string>, keywords: seq<string>)

  /** The raster loaders skip layers without a non-empty name and layers
      tagged with the keyword "features" (vector layers). */
  predicate IsRaster(rec: LayerRecord)
  {
    Truthy(rec.name) && "features" !in rec.keywords
  }

  /** The entries the raster loaders push, stated through the filter. */
  function RasterEntries(records: seq<LayerRecord>): (es: seq<Entry>)
  {
    var kept := Seqs.Filter(records, IsRaster);
    Seqs.FilterSpec(records, IsRaster);
    seq(|kept|, i requires 0 <= i < |kept| => Entry(kept[i].name.value, kept[i].name.value, false))
  }

  /** The loop of `loadRasterLayers`: a `continue` for a missing name, an
      inner keyword scan that breaks at "features", then one entry whose
      title and layer name are both the name. */
  method LoadRasterEntries(records: seq<LayerRecord>) returns (es: seq<Entry>)
    ensures es == RasterEntries(records)
    ensures forall i :: 0 <= i < |es| ==> es[i].title == es[i].layerName != "" && !es[i].selected
  {
    es := [];
    var i := 0;
    while i < |records|
      invariant 0 <= i <= |records|
      invariant es == RasterEntries(records[..i])
    {
      var rec := records[i];
      RasterEntriesSnoc(records[..i], rec);
      assert records[..i + 1] == records[..i] + [rec];
      if !Truthy(rec.name) {
        i := i + 1;
        continue;
      }
      var name := rec.name.value;
      var isVector := HasFeaturesKeyword(rec.keywords);
      if isVector {
        i := i + 1;
        continue;
      }
      es := es + [Entry(name, name, false)];
      i := i + 1;
    }
    assert records[..|records|] == records;
    RasterEntriesNamed(records);
  }

  /** The inner keyword scan: stops at the first "features". */
  method HasFeaturesKeyword(keywords: seq<string>) returns (isVector: bool)
    ensures isVector <==> "features" in keywords
  {
    isVector := false;
    var j := 0;
    while j < |keywords|
      invariant 0 <= j <= |keywords|
      invariant !isVector && forall k :: 0 <= k < j ==> keywords[k] != "features"
    {
      if keywords[j] == "features" {
        isVector := true;
        break;
      }
      j := j + 1;
    }
  }

  /** The raster entries of a list extended by one record. */
  lemma RasterEntriesSnoc(records: seq<LayerRecord>, rec: LayerRecord)
    ensures RasterEntries(records + [rec])
            == RasterEntries(records) + (if IsRaster(rec) then [Entry(rec.name.value, rec.name.value, false)] else [])
  {
    Seqs.FilterAppend(records, [rec], IsRaster);
    assert [rec][1..] == [];
    assert Seqs.Filter([rec], IsRaster) == if IsRaster(rec) then [rec] else [];
  }

  lemma RasterEntriesNamed(records: seq<LayerRecord>)
    ensures forall i :: 0 <= i < |RasterEntries(records)| ==>
              var e := RasterEntries(records)[i];
              e.title == e.layerName != "" && !e.selected
  {
    Seqs.FilterSpec(records, IsRaster);
  }

  /** `loadRasterLayers` (and its personal twin): appends the raster entries. */
  method LoadRasterLayers(v: View, records: seq<LayerRecord>, personal: bool) returns (r: View)
    ensures !personal ==> r == v.(rasterLayers := v.rasterLayers + RasterEntries(records))
    ensures personal ==> r == v.(personalRasterLayers := v.personalRasterLayers + RasterEntries(records))
  {
    var es := LoadRasterEntries(records);
    if personal {
      r := v.(personalRasterLayers := v.personalRasterLayers + es);
    } else {
      r := v.(rasterLayers := v.rasterLayers + es);
    }
  }

  /** A record becomes a raster entry exactly when its name is non-empty and
      no keyword is "features"; the entries keep the records' order. */
  lemma RasterFilterExact(records: seq<LayerRecord>)
    ensures |RasterEntries(records)| <= |records|
    ensures forall i :: 0 <= i < |records| && IsRaster(records[i]) ==>
              Entry(records[i].name.value, records[i].name.value, false) in RasterEntries(records)
    ensures forall e :: e in RasterEntries(records) ==>
              exists i :: 0 <= i < |records| && IsRaster(records[i]) && records[i].name == Some(e.title)
  {
    var kept := Seqs.Filter(records, IsRaster);
    var es := RasterEntries(records);
    Seqs.FilterSpec(records, IsRaster);
    forall i | 0 <= i < |records| && IsRaster(records[i])
      ensures Entry(records[i].name.value, records[i].name.value, false) in es
    {
      var k :| 0 <= k < |kept| && kept[k] == records[i];
      assert es[k] == Entry(records[i].name.value, records[i].name.value, false);
    }
    forall e | e in es
      ensures exists i :: 0 <= i < |records| && IsRaster(records[i]) && records[i].name == Some(e.title)
    {
      var k :| 0 <= k < |es| && es[k] == e;
      assert kept[k] in records;
      var i :| 0 <= i < |records| && records[i] == kept[k];
    }
  }

  // ---------------------------------------------------------------------
  // deleteLayers

  predicate Selected(e: Entry)
  {
    e.selected
  }

  predicate Unselected(e: Entry)
  {
    !e.selected
  }

  function Titles(es: seq<Entry>): (ts: seq<string>)
    ensures |ts| == |es| && forall i :: 0 <= i < |es| ==> ts[i] == es[i].title
  {
    seq(|es|, i requires 0 <= i < |es| => es[i].title)
  }

  /** The titles of the ticked entries, in list order. */
  function SelectedTitles(es: seq<Entry>): seq<string>
  {
    Titles(Seqs.Filter(es, Selected))
  }

  /** The server side of `deleteLayers`: one delete per selected personal
      layer, by title, vectors first; the nickname is rendered as in a
      template literal. */
  method DeleteRequests(v: View, nickname: Option<string>, token: Option<string>)
    returns (trace: seq<GeoServer.Request>)
    ensures |trace| == |SelectedTitles(v.personalVectorLayers)| + |SelectedTitles(v.personalRasterLayers)|
    ensures forall i :: 0 <= i < |trace| ==> trace[i].verb == GeoServer.Delete
    ensures forall i :: 0 <= i < |SelectedTitles(v.personalVectorLayers)| ==>
              trace[i].url == GeoServer.DataStoreDeleteUrl(Show(nickname), SelectedTitles(v.personalVectorLayers)[i])
    ensures forall i :: 0 <= i < |SelectedTitles(v.personalRasterLayers)| ==>
              trace[|SelectedTitles(v.personalVectorLayers)| + i].url
              == GeoServer.CoverageStoreDeleteUrl(Show(nickname), SelectedTitles(v.personalRasterLayers)[i])
  {
    trace := GeoServer.DeleteLayers(SelectedTitles(v.personalRasterLayers), SelectedTitles(v.personalVectorLayers),
                                    Show(nickname), token);
  }

  /** `deleteLayers`: asks the service to delete the selected personal
      layers, then keeps only the unselected ones, in their order. The
      combined list is not recomputed. */
  method DeleteLayers(v: View, nickname: Option<string>, token: Option<string>)
    returns (r: View, trace: seq<GeoServer.Request>)
    ensures |trace| == |SelectedTitles(v.personalVectorLayers)| + |SelectedTitles(v.personalRasterLayers)|
    ensures r.personalVectorLayers == Seqs.Filter(v.personalVectorLayers, Unselected)
    ensures r.personalRasterLayers == Seqs.Filter(v.personalRasterLayers, Unselected)
    ensures r.vectorLayers == v.vectorLayers && r.rasterLayers == v.rasterLayers
    ensures r.combinedVectors == v.combinedVectors
  {
    trace := DeleteRequests(v, nickname, token);
    r := View(v.vectorLayers, v.rasterLayers,
              Seqs.Filter(v.personalVectorLayers, Unselected),
              Seqs.Filter(v.personalRasterLayers, Unselected),
              v.combinedVectors);
  }

  /** Every personal layer is either deleted on the server or kept in the
      list, never both and never neither. */
  lemma DeletePartitions(es: seq<Entry>)
    ensures multiset(Seqs.Filter(es, Selected)) + multiset(Seqs.Filter(es, Unselected)) == multiset(es)
    ensures |Seqs.Filter(es, Selected)| + |Seqs.Filter(es, Unselected)| == |es|
  {
    Seqs.FilterPartition(es, Selected, Unselected);
  }

  /** Deleting a selected personal vector layer leaves the combined list
      out of date: it still offers the deleted layer. */
  lemma DeleteLeavesCombinedStale(v: View, r: View)
    requires CombinedCurrent(v)
    requires exists i :: 0 <= i < |v.personalVectorLayers| && v.personalVectorLayers[i].selected
    requires r.personalVectorLayers == Seqs.Filter(v.personalVectorLayers, Unselected)
    requires r.vectorLayers == v.vectorLayers && r.combinedVectors == v.combinedVectors
    ensures !CombinedCurrent(r)
  {
    var ps := v.personalVectorLayers;
    var i :| 0 <= i < |ps| && ps[i].selected;
    DeletePartitions(ps);
    Seqs.FilterSpec(ps, Selected);
    assert ps[i] in Seqs.Filter(ps, Selected);
    assert |Seqs.Filter(ps, Selected)| > 0;
    assert |r.vectorLayers + r.personalVectorLayers| < |r.combinedVectors|;
  }

  // ---------------------------------------------------------------------
  // Legend

  datatype LegendEntry = LegendEntry(color: string, value: string, caption: string)

  datatype Legend = Legend(title: string, description: string, entries: seq<LegendEntry>)

  /** The eight-step red-to-green scale shared by NDVI, CVI and EVI. */
  const VegetationScale: seq<LegendEntry> := [
    LegendEntry("#a50026", "-1.0", "Вода/ Нет растительности"),
    LegendEntry("#d73027", "-0.6", "Нет растительности"),
    LegendEntry("#f46d43", "-0.2", "Bare soil"),
    LegendEntry("#fdae61", "0.2", "Голая почва"),
    LegendEntry("#fee08b", "0.4", "Умеренная растительность"),
    LegendEntry("#ffffbf", "0.6", "Здоровая растительность"),
    LegendEntry("#d9ef8b", "0.8", "Очень здоровая растительность"),
    LegendEntry("#a6d96a", "1.0", "Густая растительность")
  ]

  /** The black-to-white scale for every other index. */
  const DefaultScale: seq<LegendEntry> := [
    LegendEntry("#000000", "Min", "Minimum value"),
    LegendEntry("#ffffff", "Max", "Maximum value")
  ]

  predicate IsVegetationIndex(upper: string)
  {
    upper == "NDVI" || upper == "CVI" || upper == "EVI"
  }

  /** The legend table `addIndexLegend` picks for an index name. */
  function LegendFor(indexName: string): (l: Legend)
    ensures |l.entries| == if IsVegetationIndex(ToUpper(indexName)) then 8 else 2
    ensures IsVegetationIndex(ToUpper(indexName)) ==>
              l.title == ToUpper(indexName) + " цвета" && l.entries == VegetationScale
    ensures !IsVegetationIndex(ToUpper(indexName)) ==>
              && l.title == indexName + " Color Scale"
              && l.entries[0].value == "Min" && l.entries[1].value == "Max"
  {
    var upper := ToUpper(indexName);
    if upper == "NDVI" then Legend("NDVI цвета", "Normalized Difference Vegetation Index", VegetationScale)
    else if upper == "CVI" then Legend("CVI цвета", "Chlorophyll Vegetation Index", VegetationScale)
    else if upper == "EVI" then Legend("EVI цвета", "Enhanced vegetation index", VegetationScale)
    else Legend(indexName + " Color Scale", "Spectral index values", DefaultScale)
  }

  /** Selection ignores letter case: names that upper-case alike get the same legend. */
  lemma LegendIgnoresCase(a: string, b: string)
    requires ToUpper(a) == ToUpper(b) && IsVegetationIndex(ToUpper(a))
    ensures LegendFor(a) == LegendFor(b)
  {
  }

  /** A lower-case vegetation index gets the same table as its capitals. */
  lemma LegendLowerCaseExample()
    ensures LegendFor("ndvi") == LegendFor("NDVI")
  {
    assert ToUpper("ndvi") == "NDVI";
    assert ToUpper("NDVI") == "NDVI";
  }

  /** A mixed-case name is titled in capitals. */
  lemma LegendMixedCaseExample()
    ensures LegendFor("Evi").title == "EVI цвета"
  {
    assert ToUpper("Evi") == "EVI";
  }

  /** Any other index gets the black-to-white scale under its own name. */
  lemma LegendDefaultExample()
    ensures LegendFor("SAVI").title == "SAVI Color Scale"
    ensures |LegendFor("SAVI").entries| == 2
  {
    assert ToUpper("SAVI") == "SAVI";
    assert "SAVI"[0] != "NDVI"[0] && "SAVI"[0] != "CVI"[0] && "SAVI"[0] != "EVI"[0];
  }

  /** One drawn legend row: the swatch's top edge and the caption. */
  datatype LegendRow = LegendRow(y: int, text: string)

  /** Where `addIndexLegend` draws: the rows, the final `yPos`, and the min
      and max captions under the gradient. */
  datatype LegendLayout = LegendLayout(rows: seq<LegendRow>, endY: int, minLabel: string, maxLabel: string)

  /** The drawing loop of `addIndexLegend`: rows start at 35 and advance
      by 12. */
  method LayoutLegend(indexName: string) returns (layout: LegendLayout)
    ensures var es := LegendFor(indexName).entries;
            && |layout.rows| == |es|
            && (forall i :: 0 <= i < |es| ==>
                  layout.rows[i] == LegendRow(35 + 12 * i, es[i].value + " - " + es[i].caption))
            && layout.endY == 35 + 12 * |es|
            && layout.minLabel == es[0].value
            && layout.maxLabel == es[|es| - 1].value
  {
    var legend := LegendFor(indexName);
    var es := legend.entries;
    var yPos := 35;
    var rows: seq<LegendRow> := [];
    var i := 0;
    while i < |es|
      invariant 0 <= i <= |es|
      invariant |rows| == i
      invariant yPos == 35 + 12 * i
      invariant forall k :: 0 <= k < i ==> rows[k] == LegendRow(35 + 12 * k, es[k].value + " - " + es[k].caption)
    {
      rows := rows + [LegendRow(yPos, es[i].value + " - " + es[i].caption)];
      yPos := yPos + 12;
      i := i + 1;
    }
    layout := LegendLayout(rows, yPos, es[0].value, es[|es| - 1].value);
  }

  // ---------------------------------------------------------------------
  // rgbToHex

  predicate IsChannel(c: int)
  {
    0 <= c <= 255
  }

  /** The packed colour 0xRRGGBB. */
  function Packed(r: int, g: int, b: int): int
  {
    r * 65536 + g * 256 + b
  }

  /** `rgbToHex`: sets bit 24 so the hex string has a leading "1" to drop,
      which keeps the zero padding, then upper-cases the six digits. */
  function RgbToHex(r: int, g: int, b: int): (hex: string)
    requires IsChannel(r) && IsChannel(g) && IsChannel(b)
    ensures |hex| == 7 && hex[0] == '#'
    ensures forall i :: 1 <= i < 7 ==> IsUpperHexDigit(hex[i])
    ensures AllHexDigits(hex[1..]) && HexValue(hex[1..]) == Packed(r, g, b)
  {
    var n := 0x1000000 + Packed(r, g, b);
    var digits := ToHexString(n);
    PackedDigits(n);
    HexValueToUpper(digits[1..]);
    "#" + ToUpper(digits[1..])
  }

  /** A number in [16^6, 2*16^6) prints as "1" followed by six digits that
      spell the number minus 16^6. */
  lemma PackedDigits(n: nat)
    requires 0x1000000 <= n < 0x2000000
    ensures |ToHexString(n)| == 7
    ensures AllHexDigits(ToHexString(n)[1..])
    ensures HexValue(ToHexString(n)[1..]) == n - 0x1000000
  {
    var s := ToHexString(n);
    assert Pow16(6) == 0x1000000 && Pow16(7) == 0x10000000 by {
      assert Pow16(1) == 16;
    }
    ToHexStringLength(n, 6);
    HexValueOfToHexString(n);
    HexValueFront(s);
    HexValueBound(s[1..]);
    assert DigitValue(s[0]) * 0x1000000 <= n < 2 * 0x1000000;
  }

  /** Distinct valid colours never print the same. */
  lemma RgbToHexInjective(r: int, g: int, b: int, r': int, g': int, b': int)
    requires IsChannel(r) && IsChannel(g) && IsChannel(b)
    requires IsChannel(r') && IsChannel(g') && IsChannel(b')
    requires RgbToHex(r, g, b) == RgbToHex(r', g', b')
    ensures r == r' && g == g' && b == b'
  {
    assert Packed(r, g, b) == Packed(r', g', b');
  }
}

=== FILE: seqs.dfy ===
/** Sequence operations shared by the components: `Array.prototype.filter`,
    `includes`, and the remove-first-occurrence that OpenLayers'
    `Collection.remove` performs. */
module Seqs {

  /** No element occurs twice. */
  predicate NoDup<T(==)>(s: seq<T>)
  {
    forall i, j :: 0 <= i < j < |s| ==> s[i] != s[j]
  }

  /** `a` can be obtained from `b` by deleting elements, so its elements
      appear in `b` in the same relative order. */
  predicate Subsequence<T(==)>(a: seq<T>, b: seq<T>)
    decreases |b|
  {
    |a| == 0 || (|b| > 0 && if a[0] == b[0] then Subsequence(a[1..], b[1..]) else Subsequence(a, b[1..]))
  }

  /** `s.filter(p)`. */
  function Filter<T(==)>(s: seq<T>, p: T -> bool): seq<T>
  {
    if |s| == 0 then []
    else if p(s[0]) then [s[0]] + Filter(s[1..], p)
    else Filter(s[1..], p)
  }

  /** The filtered sequence keeps exactly the elements satisfying p, in
      their order. */
  lemma {:induction false} FilterSpec<T>(s: seq<T>, p: T -> bool)
    ensures |Filter(s, p)| <= |s|
    ensures forall x :: x in Filter(s, p) <==> x in s && p(x)
    ensures forall i :: 0 <= i < |Filter(s, p)| ==> p(Filter(s, p)[i])
    ensures Subsequence(Filter(s, p), s)
  {
    if |s| > 0 {
      FilterSpec(s[1..], p);
      assert s == [s[0]] + s[1..];
    }
  }

  /** Filtering by p and by its negation splits s into two parts that
      together hold every element exactly as often as s does. */
  lemma {:induction false} FilterPartition<T>(s: seq<T>, p: T -> bool, q: T -> bool)
    requires forall x :: q(x) == !p(x)
    ensures multiset(Filter(s, p)) + multiset(Filter(s, q)) == multiset(s)
    ensures |Filter(s, p)| + |Filter(s, q)| == |s|
  {
    if |s| > 0 {
      FilterPartition(s[1..], p, q);
      assert s == [s[0]] + s[1..];
    }
  }

  /** Filtering a concatenation filters each part. */
  lemma {:induction false} FilterAppend<T>(a: seq<T>, b: seq<T>, p: T -> bool)
    ensures Filter(a + b, p) == Filter(a, p) + Filter(b, p)
  {
    if |a| > 0 {
      FilterAppend(a[1..], b, p);
      var ab := a + b;
      assert ab[0] == a[0];
      assert ab[1..] == a[1..] + b;
      assert Filter(ab, p) == (if p(a[0]) then [a[0]] else []) + Filter(ab[1..], p);
      assert Filter(a, p) == (if p(a[0]) then [a[0]] else []) + Filter(a[1..], p);
    } else {
      assert a + b == b;
    }
  }

  /** Removes the first occurrence of x, if any. */
  function RemoveFirst<T(==)>(s: seq<T>, x: T): (r: seq<T>)
    ensures x !in s ==> r == s
    ensures multiset(r) == multiset(s) - multiset{x}
  {
    if |s| == 0 then s
    else if s[0] == x then
      assert s == [s[0]] + s[1..];
      s[1..]
    else
      assert s == [s[0]] + s[1..];
      [s[0]] + RemoveFirst(s[1..], x)
  }

  /** Removing from a duplicate-free sequence removes every occurrence and
      keeps it duplicate-free. */
  lemma {:induction false} RemoveFirstNoDup<T>(s: seq<T>, x: T)
    requires NoDup(s)
    ensures NoDup(RemoveFirst(s, x)) && x !in RemoveFirst(s, x)
    ensures |RemoveFirst(s, x)| == if x in s then |s| - 1 else |s|
  {
    if |s| > 0 {
      var a, t := s[0], s[1..];
      NoDupTail(s);
      RemoveFirstNoDup(t, x);
      if a != x {
        var rest := RemoveFirst(t, x);
        assert RemoveFirst(s, x) == [a] + rest;
        assert a !in rest by {
          assert multiset(rest)[a] <= multiset(t)[a] == 0;
        }
        ConsNoDup(a, rest);
      }
    }
  }

  /** The tail of a duplicate-free sequence is duplicate-free and lacks
      the head. */
  lemma NoDupTail<T>(s: seq<T>)
    requires NoDup(s) && |s| > 0
    ensures NoDup(s[1..]) && s[0] !in s[1..]
  {
    var t := s[1..];
    forall i, j | 0 <= i < j < |t|
      ensures t[i] != t[j]
    {
      assert t[i] == s[i + 1] && t[j] == s[j + 1];
    }
    forall j | 0 <= j < |t|
      ensures t[j] != s[0]
    {
      assert t[j] == s[j + 1];
    }
  }

  lemma ConsNoDup<T>(y: T, s: seq<T>)
    requires NoDup(s) && y !in s
    ensures NoDup([y] + s)
  {
    var t := [y] + s;
    forall i, j | 0 <= i < j < |t|
      ensures t[i] != t[j]
    {
      assert t[j] == s[j - 1];
      if i > 0 {
        assert t[i] == s[i - 1];
      }
    }
  }

  /** Removes, one after the other, the first occurrence of each element of xs. */
  function RemoveEach<T(==)>(s: seq<T>, xs: seq<T>): seq<T>
  {
    if |xs| == 0 then s
    else RemoveFirst(RemoveEach(s, xs[..|xs| - 1]), xs[|xs| - 1])
  }

  /** The elements of s that are not in xs, in their order in s. */
  function Without<T(==)>(s: seq<T>, xs: seq<T>): seq<T>
  {
    if |s| == 0 then []
    else if s[0] in xs then Without(s[1..], xs)
    else [s[0]] + Without(s[1..], xs)
  }

  /** Without keeps exactly the elements outside xs, in their order. */
  lemma {:induction false} WithoutMembers<T>(s: seq<T>, xs: seq<T>)
    ensures forall y :: y in Without(s, xs) <==> y in s && y !in xs
    ensures Subsequence(Without(s, xs), s)
  {
    if |s| > 0 {
      WithoutMembers(s[1..], xs);
      assert s == [s[0]] + s[1..];
    }
  }

  lemma {:induction false} WithoutIgnoresAbsent<T>(s: seq<T>, xs: seq<T>, x: T)
    requires x !in s
    ensures Without(s, xs + [x]) == Without(s, xs)
  {
    if |s| > 0 {
      WithoutIgnoresAbsent(s[1..], xs, x);
    }
  }

  lemma {:induction false} RemoveFirstOfWithout<T>(s: seq<T>, xs: seq<T>, x: T)
    requires NoDup(s)
    ensures RemoveFirst(Without(s, xs), x) == Without(s, xs + [x])
  {
    if |s| > 0 {
      var a, t := s[0], s[1..];
      assert NoDup(t);
      RemoveFirstOfWithout(t, xs, x);
      if a in xs {
        assert a in xs + [x];
      } else if a == x {
        assert x !in t;
        assert a in xs + [x];
        WithoutIgnoresAbsent(t, xs, x);
        assert Without(s, xs) == [x] + Without(t, xs);
      } else {
        assert a !in xs + [x];
        assert Without(s, xs) == [a] + Without(t, xs);
        assert RemoveFirst([a] + Without(t, xs), x) == [a] + RemoveFirst(Without(t, xs), x);
      }
    }
  }

  /** When s has no duplicates, removing the first occurrence of each of xs
      leaves exactly the elements outside xs, in their original order. */
  lemma {:induction false} RemoveEachIsWithout<T>(s: seq<T>, xs: seq<T>)
    requires NoDup(s)
    ensures RemoveEach(s, xs) == Without(s, xs)
  {
    if |xs| == 0 {
      WithoutNothing(s, xs);
    } else {
      var init, last := xs[..|xs| - 1], xs[|xs| - 1];
      RemoveEachIsWithout(s, init);
      assert RemoveEach(s, xs) == RemoveFirst(Without(s, init), last);
      RemoveFirstOfWithout(s, init, last);
      assert init + [last] == xs;
    }
  }

  lemma {:induction false} WithoutNothing<T>(s: seq<T>, xs: seq<T>)
    requires |xs| == 0
    ensures Without(s, xs) == s
  {
    if |s| > 0 {
      WithoutNothing(s[1..], xs);
      assert [s[0]] + s[1..] == s;
    }
  }
}

=== FILE: session.dfy ===
/** The process-wide session store: the signed-in user's nickname and roles,
    each held in a reactive cell (src/app/session-data.ts). */
module Session {
  import opened Js

  datatype Session = Session(nickname: Option<string>, roles: seq<string>)

  /** Both cells' initial values: no nickname, no roles. */
  const Anonymous: Session := Session(None, [])

  function GetNickname(s: Session): Option<string>
  {
    s.nickname
  }

  function GetRoles(s: Session): seq<string>
  {
    s.roles
  }

  function SetNickname(s: Session, name: string): (r: Session)
    ensures GetNickname(r) == Some(name)
    ensures GetRoles(r) == GetRoles(s)
  {
    s.(nickname := Some(name))
  }

  function SetRoles(s: Session, roles: seq<string>): (r: Session)
    ensures GetRoles(r) == roles
    ensures GetNickname(r) == GetNickname(s)
  {
    s.(roles := roles)
  }

  function ClearNickname(s: Session): (r: Session)
    ensures GetNickname(r) == None
    ensures GetRoles(r) == GetRoles(s)
  {
    s.(nickname := None)
  }

  function ClearRoles(s: Session): (r: Session)
    ensures GetRoles(r) == []
    ensures GetNickname(r) == GetNickname(s)
  {
    s.(roles := [])
  }

  /** Clearing both cells returns the store to its initial state, whatever it held. */
  function ClearAll(s: Session): (r: Session)
    ensures GetNickname(r) == GetNickname(Anonymous) && GetRoles(r) == GetRoles(Anonymous)
    ensures r == Anonymous
  {
    ClearRoles(ClearNickname(s))
  }

  /** Clearing twice is clearing once. */
  lemma ClearAllIdempotent(s: Session)
    ensures ClearAll(ClearAll(s)) == ClearAll(s)
  {
  }

  /** Setting one cell does not disturb what was set in the other. */
  lemma SetThenGet(s: Session, name: string, roles: seq<string>)
    ensures GetNickname(SetRoles(SetNickname(s, name), roles)) == Some(name)
    ensures GetRoles(SetNickname(SetRoles(s, roles), name)) == roles
  {
  }
}

=== FILE: uploadpage.dfy ===
/** The upload page (src/app/upload/upload.component.ts): a layer name, a
    date and a file, submitted as a raster or a vector layer depending on
    the selected tab. */
module UploadPage {
  import opened Js
  import GeoServer

  datatype Tab = RasterTab | VectorTab

  /** The form's controls. They start as "", "" and null; `reset()` sets
      every one to null. The form has no validators, so it is always valid. */
  datatype Controls = Controls(layerName: Option<string>, layerDate: Option<string>, file: Option<File>)

  /** The component's state: the controls, the picked file kept beside them,
      and the selected tab. */
  datatype Page = Page(controls: Controls, selectedFile: Option<File>, selectedTab: Tab)

  const Initial: Page := Page(Controls(Some(""), Some(""), None), None, RasterTab)

  /** `onFileSelected`: the picked file, or null when none was picked, is
      both kept and patched into the form. */
  function OnFileSelected(p: Page, picked: Option<File>): (r: Page)
    ensures r.selectedFile == picked && r.controls.file == picked
    ensures r.controls.layerName == p.controls.layerName && r.controls.layerDate == p.controls.layerDate
    ensures r.selectedTab == p.selectedTab
  {
    p.(selectedFile := picked, controls := p.controls.(file := picked))
  }

  /** `switchTab`. */
  function SwitchTab(p: Page, tab: Tab): (r: Page)
    ensures r.selectedTab == tab
    ensures r.controls == p.controls && r.selectedFile == p.selectedFile
  {
    p.(selectedTab := tab)
  }

  /** `onCancel`: every control and the kept file become null; the tab
      stays. */
  function OnCancel(p: Page): (r: Page)
    ensures r.controls.layerName.None? && r.controls.layerDate.None? && r.controls.file.None?
    ensures r.selectedFile.None?
    ensures r.selectedTab == p.selectedTab
  {
    Page(Controls(None, None, None), None, p.selectedTab)
  }

  /** What `onSubmit` appends: the kept file (not the form's file control),
      the layer name, and for a vector layer the date. A null value is
      stored as the text "null". */
  function SubmitForm(p: Page): FormData
  {
    [("file", FilePart(p.selectedFile)), ("layerName", TextValue(Show(p.controls.layerName)))]
      + (if p.selectedTab == VectorTab then [("layerDate", TextValue(Show(p.controls.layerDate)))] else [])
  }

  /** The workflow a submission starts. */
  datatype Submission =
    | RasterUpload(raster: GeoServer.Run<bool>)
    | VectorUpload(vector: GeoServer.Run<()>)

  /** `onSubmit`: the vector tab starts the vector workflow, any other the
      raster workflow, with the layer name as typed ("null" after a cancel). */
  function OnSubmit(p: Page, svc: GeoServer.Service, srv: GeoServer.Server): (s: Submission)
    ensures s.VectorUpload? <==> p.selectedTab == VectorTab
    ensures var form := SubmitForm(p);
            && FormGet(form, "file") == Some(FilePart(p.selectedFile))
            && FormGet(form, "layerName") == Some(TextValue(Show(p.controls.layerName)))
            && (FormGet(form, "layerDate").Some? <==> p.selectedTab == VectorTab)
    ensures s.VectorUpload? ==>
              s.vector == GeoServer.UploadVectorLayer(svc, SubmitForm(p), Show(p.controls.layerName), srv)
    ensures s.RasterUpload? ==>
              s.raster == GeoServer.UploadRasterLayer(svc, SubmitForm(p), Show(p.controls.layerName), srv)
  {
    var form := SubmitForm(p);
    assert form[0].0 == "file" && form[1].0 == "layerName";
    assert p.selectedTab == VectorTab ==> form[2].0 == "layerDate" && |form| == 3;
    var layerName := Show(p.controls.layerName);
    if p.selectedTab == VectorTab then VectorUpload(GeoServer.UploadVectorLayer(svc, form, layerName, srv))
    else RasterUpload(GeoServer.UploadRasterLayer(svc, form, layerName, srv))
  }

  /** A raster submission never touches datastores and a vector submission
      never touches coverage stores: each tab's upload reaches only its own
      kind of store under the typed name. */
  lemma SubmissionReachesItsStore(p: Page, svc: GeoServer.Service, srv: GeoServer.Server)
    ensures var s := OnSubmit(p, svc, srv);
            var ws := GeoServer.Workspace(svc);
            var name := Show(p.controls.layerName);
            && (s.RasterUpload? ==> !GeoServer.Issued(s.raster.trace, GeoServer.Put, GeoServer.UnpublishedShapefileUrl(ws, name)))
            && (s.RasterUpload? && s.raster.outcome == GeoServer.Returned(true) ==>
                  GeoServer.Issued(s.raster.trace, GeoServer.Put, GeoServer.GeoTiffUrl(ws, name)))
            && (s.VectorUpload? ==> !GeoServer.Issued(s.vector.trace, GeoServer.Put, GeoServer.GeoTiffUrl(ws, name)))
  {
    var s := OnSubmit(p, svc, srv);
    var ws := GeoServer.Workspace(svc);
    var name := Show(p.controls.layerName);
    GeoServer.TiffAndShapefileUrlsDiffer(ws, name);
    if s.RasterUpload? {
      var t := s.raster.trace;
      if s.raster.outcome == GeoServer.Returned(true) {
        assert t[|t| - 1] in t;
      }
      GeoServer.RasterPutsOnlyTiff(svc, SubmitForm(p), name, srv);
    } else {
      GeoServer.VectorPutsOnlyShapefile(svc, SubmitForm(p), name, srv);
    }
  }

  /** After a cancel nothing is picked, so a vector submission fails on the
      missing file name before any request, while a raster submission goes
      ahead with the text "null" as its file. */
  lemma CancelledSubmission(p: Page, svc: GeoServer.Service, srv: GeoServer.Server)
    ensures var s := OnSubmit(OnCancel(p), svc, srv);
            && (s.VectorUpload? ==> s.vector == GeoServer.Run([], GeoServer.Thrown(GeoServer.NoFileName)))
            && (s.RasterUpload? ==> s.raster == GeoServer.UploadRasterLayer(svc, SubmitForm(OnCancel(p)), "null", srv))
  {
    var q := OnCancel(p);
    var form := SubmitForm(q);
    assert FormGet(form, "file") == Some(TextValue("null"));
  }
}
